=== FILE: README.md ===
# Particle-life backdrop of app.js, modelled in Dafny

`app.js` animates a "particle life" simulation behind a personal website.
Particles of four types sit on a canvas the size of the window. A random 4 x 4
affinity matrix is built once per page load. For a pair of particles in the
force band, the cell indexed by the earlier particle's type and then the later
particle's type gives the pull (positive) or push between them. Both receive
it, equally and oppositely, so which cell acts depends on the particles'
order. Every animation frame does three things:

- **force pass** (`applyForces`): every pair inside a distance band pushes or
  pulls both particles, equally and oppositely, and the mouse repels nearby
  particles;
- **update** (`updateSimulation`): velocities above a speed limit are damped,
  particles move, and positions wrap around the edges;
- **render** (`renderParticles`): close pairs, and particles near the mouse,
  get coloured connecting lines.

The population is resized to the window area at start-up and on every window
resize.

The model works over exact reals. `Math.sqrt` of the squared separation is a
distance function `dist: Vec -> real` passed in as a parameter. Where a lemma
needs it, the function is constrained by `Geometry.IsDistance`: never negative,
zero exactly on the zero vector, and unchanged when the vector is reversed.

`Math.random()` draws are parameters in [0, 1). `Math.round(x)` is
`(x + 0.5).Floor`. The mouse is `Pointer = Absent | At(pos)`.

Modules:

| module | models |
|---|---|
| `Config` | the tuning constants |
| `Numerics` | `Math.round` and `Math.min`/`Math.max` |
| `Geometry` | vectors |
| `Particles` | the `Particle` class |
| `Affinity` | the force matrix |
| `Population` | sizing the population |
| `Colors` | the colour functions |
| `Forces` | `calculateForce`, and the pair and mouse forces of `applyForces` |
| `ForcePass` | the loops of `applyForces` |
| `Render` | which lines `renderParticles` draws, and in what colour |
| `Simulation` | start-up, resize and one animation frame |

`ForcePass` writes the loops of `applyForces` once for any force law
(`ForcePass.Laws`) that reads only particle types and positions.
`ForcePass.SourceLaws` instantiates them with the laws of app.js.

Three things in the code differ from what its comments, or a first reading,
suggest. The model follows the code in each case:

- **Wrap-around.** The wrap keeps positions in the closed range [0, width],
  not [0, width). A particle exactly on the right edge is not moved to 0.
- **Colour channels** are not clamped. Ordinary visual forces already give
  negative channels.
- **Comments that disagree with the code:**
  - The scaling factor's comment says 0.1 to 1.5; the code gives [0.1, 1.0).
  - The mouse colour's comment says it goes towards blue; the code lowers
    green and blue, so the colour goes towards red.

## Model

| member | source | states |
|---|---|---|
| Numerics.Round | app.js:123 | Math.round gives the integer within half a unit of its argument, halves going up |
| Numerics.RoundMonotone | app.js:123 | rounding never reverses the order of two reals |
| Numerics.Clamp | app.js:199 | Math.min(Math.max(x, lo), hi) lies in [lo, hi], is x itself when x is already inside, lo when x is at or below lo, and hi when x is at or above hi |
| Particles.ApplyForce | app.js:70-73 | applyForce changes only the velocity, and changes it by exactly the impulse force * FORCE_SCALE |
| Particles.Impulse | app.js:70-73 | the impulse is zero exactly when the force is zero |
| Particles.ImpulseAdditive | app.js:71-72 | impulses add up as their forces do, and negating a force negates its impulse |
| Particles.ApplyForceZero | app.js:70-73 | applying the zero force leaves a particle unchanged |
| Particles.ApplyForceAccumulates | app.js:70-73 | two forces applied in turn act as their sum |
| Particles.Damp | app.js:77-84 | the velocity is left alone exactly when its speed is at most MAX_SPEED; otherwise its squared length is multiplied by exactly 0.95 * 0.95, so it gets strictly shorter, and it stays parallel to the old velocity and points the same way |
| Particles.DampShrinks | app.js:81-84 | damping never enlarges a velocity component |
| Particles.WrapAxis | app.js:89-95 | a negative coordinate gains one canvas size, one beyond the size loses one, and one already in [0, size] is not moved; size itself is not moved to 0 |
| Particles.WrapKeepsInRange | app.js:89-95 | a coordinate at most one canvas size off the canvas is brought back into the closed range [0, size] |
| Particles.Update | app.js:76-96 | update keeps the type, leaves the damped velocity in place, and moves the particle by that velocity on the torus: each coordinate is the plain move shifted by 0 or one canvas size, and is the plain move when that coordinate stays within its closed range, whatever the other coordinate does |
| Particles.UpdateStaysOnCanvas | app.js:76-96 | a particle on the canvas whose damped step is shorter than the canvas stays on the canvas |
| Particles.Color | app.js:107-110 | getColor gives a byte-valued colour from the fixed palette |
| Particles.ColorInjective | app.js:108 | distinct types get distinct colours |
| Colors.Interpolate | app.js:116 | one channel of interpolateColor is the exact blend rounded to the nearest integer |
| Colors.InterpolateColor | app.js:113-119 | each channel of interpolateColor is within half a unit of the exact blend c1 + factor * (c2 - c1), so it gives color1 at factor 0 and color2 at factor 1 |
| Colors.InterpolateBetween | app.js:116 | for a factor in [0, 1] a blended channel lies between its two ends |
| Colors.InterpolateColorBetween | app.js:113-119 | blending two byte colours with a factor in [0, 1] gives a byte colour |
| Colors.ColorForForce | app.js:251-269 | getColorForForce keeps green at 255 and lowers red and blue together for a positive force; for any other force it keeps red at 255 and lowers green and blue together; the drop is 255 * 144 times the size of the force, rounded to the nearest integer; a zero force gives white |
| Colors.ColorForForceMirror | app.js:256-266 | negating the force swaps the red and green channels |
| Colors.ColorForForceMonotone | app.js:258-266 | a stronger attraction gives a greener line and a stronger repulsion a redder one |
| Colors.ColorForForceUnclamped | app.js:256-261 | the channels are not clamped: a visual force of 0.009, which a pair at distance 10 with a cell near 1 produces, gives red and blue of -75 |
| Colors.ColorForMouseForce | app.js:239-249 | getColorForMouseForce keeps red at 255 and lowers green and blue together; a non-negative force never raises them above 255; the colour leaves white exactly from a force of 7/255 on; a force of MOUSE_REPULSION_FORCE / 10 gives pure red |
| Colors.ColorForMouseForceMonotone | app.js:246-247 | a stronger mouse force never gives a greener line |
| Affinity.ScaleFromDraw | app.js:147 | a unit draw gives a scaling factor in [0.1, 1.0) |
| Affinity.CellFromDrawBounds | app.js:153 | a matrix cell lies in [-scalingFactor, scalingFactor) |
| Affinity.Build | app.js:145-155 | the scaling factor lies in [0.1, 1.0) and every cell in [-factor, factor) |
| Affinity.Draws | app.js:145-155 | every valid matrix has valid draws to recover |
| Affinity.BuildDraws | app.js:145-155 | building from the recovered draws gives the matrix back |
| Affinity.DrawsBuild | app.js:145-155 | recovering the draws of a built matrix gives those draws back |
| Affinity.CellRoundTrip | app.js:153 | recovering the draw of one cell and scaling it again gives the cell |
| Affinity.ValidIffBuilt | app.js:145-155 | the matrices the construction can produce are exactly the valid ones |
| Population.DesiredCount | app.js:121-124 | the desired count is the window area times 0.0003, rounded to the nearest integer; an empty window holds no particles |
| Population.DesiredCountSquare | app.js:121-124 | a 100 x 100 window holds 3 particles |
| Population.DesiredCountFullHd | app.js:121-124 | a 1920 x 1080 window holds 622 particles |
| Population.DesiredCountMonotone | app.js:121-124 | a window of larger area never holds fewer particles |
| Population.KindFromDraw | app.js:135 | a unit draw r gives the type k whose quarter [k/4, (k+1)/4) of [0, 1) contains r |
| Population.KindFromDrawOnto | app.js:135 | every one of the four types is drawn by some unit draw |
| Population.CoordFromDraw | app.js:136-137 | a random coordinate lies in [0, size), and dividing it by the size gives the draw back; it is 0 on an empty axis |
| Population.CoordFromDrawOnto | app.js:136-137 | every point of [0, size) is the coordinate of some unit draw |
| Population.Spawn | app.js:135-138 | a new particle takes the type of the quarter its first draw falls in and the position its other two draws scaled to the canvas, and starts at rest on the canvas |
| Population.InitParticles | app.js:130-143 | initParticles leaves exactly the desired count; it keeps the existing particles in place and appends new ones spawned from the draws, or truncates |
| Population.InitParticlesSpawnsOnCanvas | app.js:133-139 | particles added while growing start at rest inside [0, width) x [0, height) |
| Population.InitParticlesIdempotent | app.js:130-143 | a second initParticles with the same window size changes nothing and draws nothing |
| Forces.CalculateForce | app.js:157-183 | calculateForce is zero from INTER_TYPE_MAX_DISTANCE on, is the inter-type term alone from BASIC_REPULSIVE_MAX_DISTANCE on, and lies strictly below the inter-type term inside the repulsion range |
| Forces.CalculateForceSign | app.js:164-171 | between the repulsion range and INTER_TYPE_MAX_DISTANCE the force has the sign of the matrix cell |
| Forces.CalculateForceBounds | app.js:157-183 | with a constructed matrix the force lies in (-0.11, 0.01) |
| Forces.AffinityTermBounds | app.js:164-171 | the inter-type term is smaller in size than INTER_TYPE_FORCE_STRENGTH |
| Forces.RepulsionTermBounds | app.js:173-180 | the repulsive term lies in [0, BASIC_REPULSIVE_FORCE_STRENGTH] |
| Forces.PairForce | app.js:285-295 | a pair outside the band 2 * PARTICLE_SIZE < d < FORCE_THRESHOLD exerts no force |
| Forces.PairForceAlongSeparation | app.js:290-292 | the pair force lies along the separation of the two particles |
| Forces.PairForceDirection | app.js:289-294 | an interacting pair pulls the first particle towards the second for a positive cell, pushes it away for a negative cell, and exerts nothing for a zero cell |
| Forces.CoincidentParticlesIgnoreEachOther | app.js:289 | particles at the same position do not interact |
| Forces.InteractsSymmetric | app.js:285-289 | the distance, and so whether a pair interacts, does not depend on the order of the pair |
| Forces.PairForceOnlyPlaces | app.js:285-292 | the pair force reads the types and positions of the particles, never their velocities |
| Forces.PushForce | app.js:299-315 | without a mouse, or outside 0 < d < MOUSE_EFFECT_RADIUS, the mouse exerts no force |
| Forces.PushForceAlongAway | app.js:307-313 | the mouse force lies along the line from the mouse to the particle |
| Forces.PushPointsAway | app.js:304-313 | the mouse force points away from the mouse |
| Forces.PushForceOnlyPlace | app.js:299-313 | the mouse force reads the position, never the velocity |
| ForcePass.SourceLawsAgree | app.js:285-313 | read off types and positions, the force laws the loops use give exactly the band test, pair force, mouse test and mouse force of app.js |
| ForcePass.SourceContributions | app.js:289-313 | under those laws a pair contributes its pair force and the mouse its repulsion |
| ForcePass.Row | app.js:283-296 | the inner loop of particle i keeps the count, every type and every position |
| ForcePass.PairStep | app.js:284-295 | one inner iteration changes at most particles i and j, keeps all positions, and changes nothing outside the band |
| ForcePass.Pass | app.js:281-316 | the outer loop keeps the count, every type and every position |
| ForcePass.MouseStep | app.js:299-315 | the mouse block changes at most particle i and keeps all positions |
| ForcePass.ApplyForces | app.js:280-317 | applyForces keeps every type and position |
| ForcePass.PairStepMoves | app.js:289-295 | one inner iteration gives i the pair contribution and j its negation |
| ForcePass.RowEffect | app.js:283-296 | the inner loop of particle i gives i the sum of its remaining pair forces and every later particle its reaction |
| ForcePass.PassEffect | app.js:281-316 | the outer loop, run from any point on, completes every particle's received force into its net force |
| ForcePass.PassIsNetForce | app.js:280-317 | for any force law reading only places, the pass gives every particle its net force: the force of every pair it belongs to, counted once, with the reaction where it comes second, plus the mouse force |
| ForcePass.ApplyForcesIsNetForce | app.js:280-317 | applyForces gives every particle that net force, whatever the order of the loops |
| ForcePass.MomentumReplace | app.js:70-73 | replacing one particle changes the total velocity by its change of velocity |
| ForcePass.PairStepMomentum | app.js:293-294 | every pair force comes with its reaction, so an inner iteration keeps the total velocity |
| ForcePass.ActionReaction | app.js:293-294 | a force on one particle and its negation on another cancel in the total velocity |
| ForcePass.RowMomentum | app.js:283-296 | the inner loop keeps the total velocity |
| ForcePass.MouseStepMomentum | app.js:299-315 | the mouse block adds the impulse of the mouse force on particle i to the total velocity |
| ForcePass.PassMomentum | app.js:281-316 | the outer loop from i on adds the impulse of the mouse forces on the particles it visits, and nothing else |
| ForcePass.PassMomentumTotal | app.js:280-317 | for any force law reading only places, the pass changes the total velocity by the impulse of the summed mouse forces alone |
| ForcePass.ApplyForcesMomentum | app.js:280-317 | applyForces changes the total velocity by the impulse of the mouse forces alone |
| ForcePass.ApplyForcesConservesMomentum | app.js:280-317 | without a mouse applyForces conserves the total velocity |
| ForcePass.NoPushWithoutMouse | app.js:299 | without a mouse no particle is repelled |
| Render.PairLine | app.js:196-212 | a pair gets a line exactly when closer than MAX_LINE_DISTANCE, and never an invalid colour |
| Render.PairLineIsForceColor | app.js:198-208 | with a constructed matrix the clamp never bites: a drawn line has exactly the colour of calculateForce |
| Render.PairLineSymmetric | app.js:200-204 | whether a pair gets a line does not depend on the order of the pair |
| Render.PairLineImpliesNear | app.js:204 | lines join only particles within both the inter-type and the force range |
| Render.MouseLine | app.js:215-230 | without a mouse no line; with one, no line exactly from MOUSE_EFFECT_RADIUS on, an invalid colour exactly at distance 0, and between them a line with red at 255 and green equal to blue below 255; at distance 10 the line is pure red |
| Render.MouseLineIffPushed | app.js:215-230 | a mouse line with a real colour is drawn exactly for the particles the mouse block of applyForces repels |
| Render.MouseLineCloserIsRedder | app.js:219-228 | of two particles with mouse lines the closer one has the redder line |
| Render.MouseLines | app.js:215-231 | one mouse line per particle, in particle order: none at all without a mouse; a coloured line exactly for the particles the mouse block of applyForces repels; a broken colour exactly for a particle under the cursor |
| Render.MouseLinesPushed | app.js:215-230 | for every particle, a coloured mouse line exactly when the mouse repels it, and a broken colour exactly when it sits under the cursor |
| Simulation.UpdateSimulation | app.js:186-191 | updateSimulation keeps the count and the types, damps every velocity, and moves every particle by its damped velocity on the torus, each axis wrapped on its own |
| Simulation.UpdateSimulationKeepsCanvas | app.js:186-191 | with short steps updateSimulation keeps every particle on the canvas |
| Simulation.Frame | app.js:571-577 | a frame keeps the matrix, the mouse, the canvas size, the count and the types |
| Simulation.FrameKeepsCanvas | app.js:571-577 | a frame keeps every particle on the canvas as long as the damped velocities are shorter than the canvas |
| Simulation.FramePosition | app.js:571-577 | each particle leaves a frame moved from where it started by its new velocity around the torus, each axis wrapped on its own |
| Simulation.FrameVelocity | app.js:571-577 | each particle leaves a frame with the damped velocity it had after its net force |
| Simulation.Resize | app.js:271-275 | resizeCanvas adopts the window size and resizes the population to the desired count, keeping the particles below it and spawning the rest from the draws |
| Simulation.ResizeEvent | app.js:54-58 | after a window resize event the population has the desired count, the particles below it are kept and the rest are spawned from the draws |
| Simulation.ResizeEventIsOneResize | app.js:54-58 | the population resizes of one resize event (this listener, and the one resizeCanvas registers at line 277) amount to one |
| Simulation.Start | app.js:271-277 | page load (the matrix, resizeCanvas at line 276, initParticles at line 580) builds the matrix from its draws, starts without a mouse, takes the window size as the canvas size, and sizes the population to the window |
| Simulation.StartAtRest | app.js:130-143 | at start every particle is at rest inside [0, width) x [0, height) |

## Left out

- Drawing on the canvas is left out: `ctx` calls, `Particle.draw`, `clearRect` and CSS colour strings. Colours are integer triples, and `Render` models only which lines are drawn and in what colour.
- `requestAnimationFrame` is left out. A frame is one call of `Simulation.Frame`.
- The event handlers are left out. The mousemove handler and the interactive-element test only set the pointer, and the pointer is an input of the model.
- The navigation, menu and routing code after app.js:325 is left out. It does not touch the simulation.
- `Math.random` is left out. Its draws are parameters in [0, 1).
- `Math.sqrt` is left out. It is the abstract `dist`, constrained only by `IsDistance`: never negative, zero only on the zero vector, and unchanged when the vector is reversed. That it is the Euclidean length is not stated.
- IEEE-754 floating point is left out. The model computes over exact reals, so rounding error, overflow and NaN are not modelled.
- The mouse line at distance exactly 0 divides by zero in JavaScript. The resulting colour string is not a colour, and it is modelled only as `Render.InvalidColor`.
- The browser's clamping of colour channels is left out. A finite channel outside [0, 255] in an `rgb(...)` string is clamped when the colour is parsed, so `Line(Rgb(-75, 255, -75))` is stroked as rgb(0, 255, 0). The model keeps the channels app.js computes.
- The second definition of `updateSimulation` (app.js:320-324) is identical to the first and is not modelled separately.
- `NUM_PARTICLES` (app.js:5) is never read and is not modelled.
- The window size and the canvas size are one pair of numbers. `resizeCanvas` copies the first into the second before every `initParticles`.
- `interpolateColor` (app.js:113-119) is never called in app.js. It is modelled on its own.
- Simulation.FrameKeepsCanvas: assumes as a precondition that the damped velocities are at most one canvas size per axis. The single wrap of `update` cannot bring back a particle that moves further, and nothing in app.js bounds the velocities.

=== FILE: affinity.dfy ===
/** The session's force matrix (app.js:145-155): one scaling factor drawn
    first, then sixteen cells drawn row by row, each scaled by it. */
module Affinity {
  import opened Config
  import opened Numerics
  import opened Particles

  /** A NumTypes x NumTypes table. */
  type Grid = g: seq<seq<real>> | |g| == NumTypes && forall i :: 0 <= i < |g| ==> |g[i]| == NumTypes
    witness [[0.0, 0.0, 0.0, 0.0], [0.0, 0.0, 0.0, 0.0], [0.0, 0.0, 0.0, 0.0], [0.0, 0.0, 0.0, 0.0]]

  datatype Matrix = Matrix(scale: real, cells: Grid) {
    /** forceMatrix[i][j]: the pull (positive) or push between a particle of
        type i and a later particle of type j in the particle order; both
        receive it, equally and oppositely, so for that pair the cell [j][i]
        plays no part. */
    function Cell(i: Kind, j: Kind): real {
      cells[i][j]
    }
  }

  /** What the construction guarantees: the factor lies in [0.1, 1.0) and
      every cell in [-factor, factor). */
  predicate Valid(m: Matrix) {
    && 0.1 <= m.scale < 1.0
    && forall i, j :: 0 <= i < NumTypes && 0 <= j < NumTypes ==> -m.scale <= m.cells[i][j] < m.scale
  }

  predicate ValidDraws(scaleDraw: real, cellDraws: seq<real>) {
    IsUnit(scaleDraw) && |cellDraws| == NumTypes * NumTypes && forall k :: 0 <= k < |cellDraws| ==> IsUnit(cellDraws[k])
  }

  /** scalingFactor: a unit draw stretched over [0.1, 1.0). */
  function ScaleFromDraw(r: real): (s: real)
    ensures IsUnit(r) ==> 0.1 <= s < 1.0
  {
    r * 0.9 + 0.1
  }

  function CellFromDraw(r: real, scale: real): real {
    (r * 2.0 - 1.0) * scale
  }

  /** A unit draw mapped to [-1, 1) and scaled by a positive factor lands in
      [-factor, factor). */
  lemma CellFromDrawBounds(r: real, scale: real)
    requires IsUnit(r) && scale > 0.0
    ensures -scale <= CellFromDraw(r, scale) < scale
  {
    var u := r * 2.0 - 1.0;
    assert scale - u * scale == (1.0 - u) * scale;
    assert u * scale + scale == (u + 1.0) * scale;
  }

  /** The construction of scalingFactor and forceMatrix from one scale draw
      and sixteen cell draws. */
  function Build(scaleDraw: real, cellDraws: seq<real>): (m: Matrix)
    requires ValidDraws(scaleDraw, cellDraws)
    ensures Valid(m)
  {
    var scale := ScaleFromDraw(scaleDraw);
    var cells := seq(NumTypes, i requires 0 <= i < NumTypes =>
                   seq(NumTypes, j requires 0 <= j < NumTypes => CellFromDraw(cellDraws[NumTypes * i + j], scale)));
    forall i, j | 0 <= i < NumTypes && 0 <= j < NumTypes
      ensures -scale <= cells[i][j] < scale
    {
      CellFromDrawBounds(cellDraws[NumTypes * i + j], scale);
    }
    Matrix(scale, cells)
  }

  /** The draws a valid matrix was built from: the inverse of Build. */
  function Draws(m: Matrix): (d: (real, seq<real>))
    requires Valid(m)
    ensures ValidDraws(d.0, d.1)
  {
    var cellDraws := seq(NumTypes * NumTypes, k requires 0 <= k < NumTypes * NumTypes =>
                       (m.cells[k / NumTypes][k % NumTypes] / m.scale + 1.0) / 2.0);
    forall k | 0 <= k < NumTypes * NumTypes
      ensures IsUnit(cellDraws[k])
    {
      UnscaleBounds(m.cells[k / NumTypes][k % NumTypes], m.scale);
    }
    ((m.scale - 0.1) / 0.9, cellDraws)
  }

  lemma UnscaleBounds(c: real, scale: real)
    requires scale > 0.0 && -scale <= c < scale
    ensures -1.0 <= c / scale < 1.0
  {
    assert (c / scale) * scale == c;
  }

  /** Building from recovered draws gives the matrix back. */
  lemma BuildDraws(m: Matrix)
    requires Valid(m)
    ensures Build(Draws(m).0, Draws(m).1) == m
  {
    var (r, cs) := Draws(m);
    var b := Build(r, cs);
    assert b.scale == m.scale;
    forall i | 0 <= i < NumTypes
      ensures b.cells[i] == m.cells[i]
    {
      forall j | 0 <= j < NumTypes
        ensures b.cells[i][j] == m.cells[i][j]
      {
        var k := NumTypes * i + j;
        assert k / NumTypes == i && k % NumTypes == j;
        assert cs[k] == (m.cells[i][j] / m.scale + 1.0) / 2.0;
        CellRoundTrip(m.cells[i][j], m.scale);
      }
    }
  }

  /** Recovering the draw of one cell and drawing it again gives the cell. */
  lemma CellRoundTrip(c: real, scale: real)
    requires scale > 0.0
    ensures CellFromDraw((c / scale + 1.0) / 2.0, scale) == c
  {
    var u := c / scale;
    assert ((u + 1.0) / 2.0) * 2.0 - 1.0 == u;
    assert u * scale == c;
  }

  /** Recovering the draws of a built matrix gives the draws back. */
  lemma DrawsBuild(scaleDraw: real, cellDraws: seq<real>)
    requires ValidDraws(scaleDraw, cellDraws)
    ensures Draws(Build(scaleDraw, cellDraws)) == (scaleDraw, cellDraws)
  {
    var m := Build(scaleDraw, cellDraws);
    var (r, cs) := Draws(m);
    assert r == scaleDraw;
    forall k | 0 <= k < NumTypes * NumTypes
      ensures cs[k] == cellDraws[k]
    {
      var i, j := k / NumTypes, k % NumTypes;
      assert NumTypes * i + j == k;
      var u := cellDraws[k] * 2.0 - 1.0;
      assert m.cells[i][j] == CellFromDraw(cellDraws[NumTypes * i + j], m.scale);
      assert m.cells[i][j] == u * m.scale;
      assert (u * m.scale) / m.scale == u;
    }
    assert cs == cellDraws;
  }

  /** Valid describes exactly the matrices the construction can produce. */
  lemma ValidIffBuilt(m: Matrix)
    ensures Valid(m) <==> exists r, cs :: ValidDraws(r, cs) && Build(r, cs) == m
  {
    if Valid(m) {
      BuildDraws(m);
      var (r, cs) := Draws(m);
      assert ValidDraws(r, cs) && Build(r, cs) == m;
    }
  }
}

=== FILE: colors.dfy ===
/** Colour computations of the renderer (app.js:113-119, 239-269), returning
    integer channel triples instead of CSS strings. */
module Colors {
  import opened Config
  import opened Numerics

  datatype Rgb = Rgb(r: int, g: int, b: int) {
    predicate IsByte() {
      0 <= r <= 255 && 0 <= g <= 255 && 0 <= b <= 255
    }
  }

  const White: Rgb := Rgb(255, 255, 255)

  /** The multiplier getColorForForce applies to its input. */
  const ForceColorGain: real := 144.0

  /** The exact blend of one channel, before rounding. */
  function Lerp(a: int, b: int, t: real): real {
    a as real + t * (b - a) as real
  }

  function Interpolate(a: int, b: int, t: real): (n: int)
    ensures n as real - 0.5 <= Lerp(a, b, t) < n as real + 0.5
  {
    Round(a as real + t * (b - a) as real)
  }

  /** interpolateColor: each channel of c1 moved the fraction `factor` of the
      way to c2, rounded to the nearest integer. */
  function InterpolateColor(c1: Rgb, c2: Rgb, factor: real): (c: Rgb)
    ensures c.r as real - 0.5 <= Lerp(c1.r, c2.r, factor) < c.r as real + 0.5
    ensures c.g as real - 0.5 <= Lerp(c1.g, c2.g, factor) < c.g as real + 0.5
    ensures c.b as real - 0.5 <= Lerp(c1.b, c2.b, factor) < c.b as real + 0.5
    ensures factor == 0.0 ==> c == c1
    ensures factor == 1.0 ==> c == c2
  {
    RoundInt(c1.r); RoundInt(c1.g); RoundInt(c1.b);
    RoundInt(c2.r); RoundInt(c2.g); RoundInt(c2.b);
    Rgb(Interpolate(c1.r, c2.r, factor), Interpolate(c1.g, c2.g, factor), Interpolate(c1.b, c2.b, factor))
  }

  /** For a factor in [0, 1] a blended channel stays between its two ends. */
  lemma InterpolateBetween(a: int, b: int, t: real)
    requires 0.0 <= t <= 1.0
    ensures a <= b ==> a <= Interpolate(a, b, t) <= b
    ensures b <= a ==> b <= Interpolate(a, b, t) <= a
  {
    var l := Lerp(a, b, t);
    LerpBetween(a, b, t);
    assert Interpolate(a, b, t) == Round(l);
    if a <= b {
      RoundBetween(a, l, b);
    } else {
      RoundBetween(b, l, a);
    }
  }

  /** For a factor in [0, 1] the exact blend lies between the two ends. */
  lemma LerpBetween(a: int, b: int, t: real)
    requires 0.0 <= t <= 1.0
    ensures a <= b ==> a as real <= Lerp(a, b, t) <= b as real
    ensures b <= a ==> b as real <= Lerp(a, b, t) <= a as real
  {
    FractionBetween(t, (b - a) as real);
  }

  lemma InterpolateColorBetween(c1: Rgb, c2: Rgb, factor: real)
    requires 0.0 <= factor <= 1.0
    requires c1.IsByte() && c2.IsByte()
    ensures InterpolateColor(c1, c2, factor).IsByte()
  {
    InterpolateBetween(c1.r, c2.r, factor);
    InterpolateBetween(c1.g, c2.g, factor);
    InterpolateBetween(c1.b, c2.b, factor);
  }

  /** How far a force of magnitude m pulls the line colour away from white. */
  function ForceShade(m: real): int {
    Round(255.0 * m)
  }

  /** getColorForForce: white for no force, towards green (red and blue
      lowered together) for a positive force, towards red (green and blue
      lowered together) otherwise, each lowered by 255 * 144 * |force|
      rounded to the nearest integer. No channel is clamped. */
  function ColorForForce(force: real): (c: Rgb)
    ensures force > 0.0 ==> c.g == 255 && c.r == c.b && c.r <= 255
    ensures force > 0.0 ==> (255 - c.r) as real - 0.5 <= 255.0 * (force * ForceColorGain) < (255 - c.r) as real + 0.5
    ensures force <= 0.0 ==> c.r == 255 && c.g == c.b && c.g <= 255
    ensures force <= 0.0 ==> (255 - c.g) as real - 0.5 <= 255.0 * -(force * ForceColorGain) < (255 - c.g) as real + 0.5
    ensures force == 0.0 ==> c == White
  {
    var scaled := force * ForceColorGain;
    if scaled > 0.0 then
      var shade := ForceShade(scaled);
      Rgb(255 - shade, 255, 255 - shade)
    else
      var shade := ForceShade(-scaled);
      Rgb(255, 255 - shade, 255 - shade)
  }

  /** Negating the force swaps the red and green channels. */
  lemma ColorForForceMirror(force: real)
    ensures var c := ColorForForce(force);
            ColorForForce(-force) == Rgb(c.g, c.r, c.b)
  {
    if force > 0.0 {
      assert -force * ForceColorGain <= 0.0;
      assert -(-force * ForceColorGain) == force * ForceColorGain;
    } else if force < 0.0 {
      assert -force * ForceColorGain > 0.0;
      assert -force * ForceColorGain == -(force * ForceColorGain);
    }
  }

  /** A stronger attraction gives a greener line, a stronger repulsion a redder one. */
  lemma ColorForForceMonotone(f1: real, f2: real)
    ensures 0.0 < f1 <= f2 ==> ColorForForce(f2).r <= ColorForForce(f1).r
    ensures f2 <= f1 <= 0.0 ==> ColorForForce(f2).g <= ColorForForce(f1).g
  {
    if 0.0 < f1 <= f2 {
      assert f1 * ForceColorGain > 0.0;
      RoundMonotone(255.0 * (f1 * ForceColorGain), 255.0 * (f2 * ForceColorGain));
    }
    if f2 <= f1 <= 0.0 {
      RoundMonotone(255.0 * -(f1 * ForceColorGain), 255.0 * -(f2 * ForceColorGain));
    }
  }

  /** The channels leave the byte range: a visual force of 0.009, which a
      pair at distance 10 with a matrix cell near 1 produces, already gives
      a negative red channel. */
  lemma ColorForForceUnclamped()
    ensures ColorForForce(0.009) == Rgb(-75, 255, -75)
  {
    assert 0.009 * ForceColorGain == 1.296;
    assert 255.0 * 1.296 == 330.48;
  }

  /** getColorForMouseForce: green and blue lowered together in proportion
      to the force, so the colour moves from white towards red (the comment
      beside it in app.js speaks of blue). No channel is clamped. */
  function ColorForMouseForce(force: real): (c: Rgb)
    ensures c.r == 255 && c.g == c.b
    ensures force >= 0.0 ==> c.g <= 255
    ensures c.g < 255 <==> force >= 7.0 / 255.0
    ensures force == MouseRepulsionForce / 10.0 ==> c == Rgb(255, 0, 0)
  {
    var shade := Round((255.0 * (force * 10.0)) / MouseRepulsionForce);
    Rgb(255, 255 - shade, 255 - shade)
  }

  /** A stronger pointer force gives a redder line. */
  lemma ColorForMouseForceMonotone(f1: real, f2: real)
    requires f1 <= f2
    ensures ColorForMouseForce(f2).g <= ColorForMouseForce(f1).g
  {
    RoundMonotone((255.0 * (f1 * 10.0)) / MouseRepulsionForce, (255.0 * (f2 * 10.0)) / MouseRepulsionForce);
  }
}

=== FILE: config.dfy ===
/** Tuning constants of the particle engine (app.js, lines 4-16, and the literals
    of calculateDesiredParticleCount and the type draw). FORCE_SCALE (line 8)
    is written out as 0.0005 in Particles.Impulse, and the gain 144 of
    getColorForForce is Colors.ForceColorGain. */
module Config {
  /** Pairs closer than this get a connecting line. */
  const MaxLineDistance: real := 40.0
  /** Particle radius; twice this is the dead zone of the dynamic pair force. */
  const ParticleSize: real := 4.0
  /** Pairs at or beyond this distance exert no dynamic force. */
  const ForceThreshold: real := 200.0
  const MaxSpeed: real := 2.0
  const DecelerationFactor: real := 0.95
  const InterTypeForceStrength: real := 0.01
  const InterTypeMaxDistance: real := 120.0
  const BasicRepulsiveForceStrength: real := 0.1
  const BasicRepulsiveMaxDistance: real := 10.0
  const MouseRepulsionForce: real := 140.0
  const MouseEffectRadius: real := 120.0
  /** Particles per square pixel of window area. */
  const Density: real := 0.0003
  /** Number of particle types; rows and columns of the affinity matrix. */
  const NumTypes: int := 4
}

=== FILE: force_pass.dfy ===
/** The force pass applyForces (app.js:280-317): for every particle i, the
    pairs (i, j) with j > i, then the mouse repulsion on i. The loops are
    written once for any force law that reads types and positions only;
    ApplyForces runs them with the laws of app.js. */
module ForcePass {
  import opened Geometry
  import opened Particles
  import opened Affinity
  import opened Forces

  /** What a pass asks of the forces: whether a pair interacts, the force it
      puts on its first particle, whether the mouse repels a particle, and
      with what force. Each is read off places, so velocities never matter. */
  datatype Laws = Laws(near: (Place, Place) -> bool, pair: (Place, Place) -> Vec,
                       pushed: Place -> bool, push: Place -> Vec)

  /** The particle at rest at a place. */
  function AtRest(q: Place): Particle {
    Particle(q.kind, q.pos, Zero)
  }

  /** The laws of app.js: the band test and pair force of the inner loop, and
      the mouse test and mouse repulsion of the block after it. */
  function SourceLaws(m: Matrix, ptr: Pointer, dist: Vec -> real): Laws {
    Laws((a: Place, b: Place) => Interacts(AtRest(a), AtRest(b), dist),
         (a: Place, b: Place) => PairForce(AtRest(a), AtRest(b), m, dist),
         (q: Place) => Pushes(AtRest(q), ptr, dist),
         (q: Place) => PushForce(AtRest(q), ptr, dist))
  }

  /** Read off the places of two particles, the laws give what app.js
      computes from the particles themselves. */
  lemma SourceLawsAgree(a: Particle, b: Particle, m: Matrix, ptr: Pointer, dist: Vec -> real)
    ensures var laws := SourceLaws(m, ptr, dist);
            && laws.near(PlaceOf(a), PlaceOf(b)) == Interacts(a, b, dist)
            && laws.pair(PlaceOf(a), PlaceOf(b)) == PairForce(a, b, m, dist)
            && laws.pushed(PlaceOf(a)) == Pushes(a, ptr, dist)
            && laws.push(PlaceOf(a)) == PushForce(a, ptr, dist)
  {
    PairForceOnlyPlaces(AtRest(PlaceOf(a)), a, AtRest(PlaceOf(b)), b, m, dist);
    PushForceOnlyPlace(AtRest(PlaceOf(a)), a, ptr, dist);
  }

  /** Two populations that differ at most in velocities. */
  predicate SamePlaces(r: seq<Particle>, s: seq<Particle>) {
    |r| == |s| && forall k :: 0 <= k < |r| ==> SamePlace(r[k], s[k])
  }

  // ---------------------------------------------------------------------
  // The loops.

  /** One iteration of the inner loop: the pair (i, j), i < j, read off the
      current particles; outside the band nothing is applied. */
  function PairStep(cur: seq<Particle>, i: nat, j: nat, laws: Laws): (r: seq<Particle>)
    requires i < j < |cur|
    ensures SamePlaces(r, cur)
    ensures forall k :: 0 <= k < |r| && k != i && k != j ==> r[k] == cur[k]
    ensures !laws.near(PlaceOf(cur[i]), PlaceOf(cur[j])) ==> r == cur
  {
    var a, b := PlaceOf(cur[i]), PlaceOf(cur[j]);
    if laws.near(a, b) then
      var force := laws.pair(a, b);
      cur[i := ApplyForce(cur[i], force)][j := ApplyForce(cur[j], force.Neg())]
    else
      cur
  }

  /** The inner loop for particle i, from j to the end. */
  function Row(cur: seq<Particle>, i: nat, j: nat, laws: Laws): (r: seq<Particle>)
    requires i < j <= |cur|
    ensures SamePlaces(r, cur)
    decreases |cur| - j
  {
    if j == |cur| then cur else Row(PairStep(cur, i, j, laws), i, j + 1, laws)
  }

  /** One unfolding of the inner loop. */
  lemma RowUnfold(cur: seq<Particle>, i: nat, j: nat, laws: Laws)
    requires i < j <= |cur|
    ensures j == |cur| ==> Row(cur, i, j, laws) == cur
    ensures j < |cur| ==> Row(cur, i, j, laws) == Row(PairStep(cur, i, j, laws), i, j + 1, laws)
  {
  }

  /** The mouse block for particle i. */
  function MouseStep(cur: seq<Particle>, i: nat, laws: Laws): (r: seq<Particle>)
    requires i < |cur|
    ensures SamePlaces(r, cur)
    ensures forall k :: 0 <= k < |r| && k != i ==> r[k] == cur[k]
  {
    var a := PlaceOf(cur[i]);
    if laws.pushed(a) then cur[i := ApplyForce(cur[i], laws.push(a))] else cur
  }

  /** The forEach over particles from index i on. */
  function Pass(cur: seq<Particle>, i: nat, laws: Laws): (r: seq<Particle>)
    requires i <= |cur|
    ensures SamePlaces(r, cur)
    decreases |cur| - i
  {
    if i == |cur| then cur else Pass(MouseStep(Row(cur, i, i + 1, laws), i, laws), i + 1, laws)
  }

  /** One unfolding of the outer loop. */
  lemma PassUnfold(cur: seq<Particle>, i: nat, laws: Laws)
    requires i <= |cur|
    ensures i == |cur| ==> Pass(cur, i, laws) == cur
    ensures i < |cur| ==> Pass(cur, i, laws) == Pass(MouseStep(Row(cur, i, i + 1, laws), i, laws), i + 1, laws)
  {
  }

  /** applyForces: velocities change, types and positions do not. */
  function ApplyForces(ps: seq<Particle>, m: Matrix, ptr: Pointer, dist: Vec -> real): (r: seq<Particle>)
    ensures SamePlaces(r, ps)
  {
    Pass(ps, 0, SourceLaws(m, ptr, dist))
  }

  // ---------------------------------------------------------------------
  // Reference: the total force on each particle, independent of loop order.

  /** What the pair (a, b) contributes to a: its force inside the band,
      nothing outside. */
  function Pull(laws: Laws, a: Place, b: Place): Vec {
    if laws.near(a, b) then laws.pair(a, b) else Zero
  }

  /** What the mouse contributes to a particle. */
  function Kick(laws: Laws, a: Place): Vec {
    if laws.pushed(a) then laws.push(a) else Zero
  }

  /** With the laws of app.js a pair contributes exactly its pair force and
      the mouse exactly its repulsion. */
  lemma SourceContributions(a: Particle, b: Particle, m: Matrix, ptr: Pointer, dist: Vec -> real)
    ensures Pull(SourceLaws(m, ptr, dist), PlaceOf(a), PlaceOf(b)) == PairForce(a, b, m, dist)
    ensures Kick(SourceLaws(m, ptr, dist), PlaceOf(a)) == PushForce(a, ptr, dist)
  {
    SourceLawsAgree(a, b, m, ptr, dist);
  }

  /** Forces particle k receives as the first of the pairs (k, j'), j <= j' < |ps|. */
  function OutSum(ps: seq<Particle>, k: nat, j: nat, laws: Laws): Vec
    requires k < |ps| && j <= |ps|
    decreases |ps| - j
  {
    if j == |ps| then Zero else Pull(laws, PlaceOf(ps[k]), PlaceOf(ps[j])).Plus(OutSum(ps, k, j + 1, laws))
  }

  /** Reactions particle k receives as the second of the pairs (i', k), i' < i. */
  function InSum(ps: seq<Particle>, k: nat, i: nat, laws: Laws): Vec
    requires i <= k < |ps|
  {
    if i == 0 then Zero else InSum(ps, k, i - 1, laws).Plus(Pull(laws, PlaceOf(ps[i - 1]), PlaceOf(ps[k])).Neg())
  }

  /** Every pair containing k contributes its force (k first) or its reaction
      (k second), and the mouse its repulsion on k. */
  function NetForce(ps: seq<Particle>, k: nat, laws: Laws): Vec
    requires k < |ps|
  {
    InSum(ps, k, k, laws).Plus(OutSum(ps, k, k + 1, laws)).Plus(Kick(laws, PlaceOf(ps[k])))
  }

  /** What particle k has received once the loop has reached particle i. */
  function Received(ps: seq<Particle>, k: nat, i: nat, laws: Laws): Vec
    requires k < |ps|
  {
    if k < i then NetForce(ps, k, laws) else InSum(ps, k, i, laws)
  }

  /** Particle k after the inner loop of particle i has run from j to the end. */
  function RowOutcome(ps: seq<Particle>, cur: seq<Particle>, i: nat, j: nat, k: nat, laws: Laws): Particle
    requires i < |ps| && j <= |ps| && k < |cur| == |ps|
  {
    if k == i then ApplyForce(cur[i], OutSum(ps, i, j, laws))
    else if j <= k then ApplyForce(cur[k], Pull(laws, PlaceOf(ps[i]), PlaceOf(ps[k])).Neg())
    else cur[k]
  }

  // ---------------------------------------------------------------------
  // The loops compute the reference.

  /** The inner loop of particle i, run from j on, gives i the pair forces of
      all remaining pairs and each later particle k its reaction. */
  lemma {:induction false} RowEffect(ps: seq<Particle>, cur: seq<Particle>, i: nat, j: nat, k: nat, laws: Laws)
    requires i < j <= |ps| && k < |ps|
    requires SamePlaces(cur, ps)
    ensures Row(cur, i, j, laws)[k] == RowOutcome(ps, cur, i, j, k, laws)
    decreases |ps| - j
  {
    if j == |ps| {
      RowEffectDone(ps, cur, i, j, k, laws);
    } else {
      var c := PairStep(cur, i, j, laws);
      var f := Pull(laws, PlaceOf(ps[i]), PlaceOf(ps[j]));
      var j' := j + 1;
      assert Row(cur, i, j, laws) == Row(c, i, j', laws);
      RowEffect(ps, c, i, j', k, laws);
      PairStepMoves(ps, cur, i, j, laws);
      if k == i {
        RowStepFirst(ps, cur, c, i, j, f, laws);
      } else if k == j {
        RowStepSecond(ps, cur, c, i, j, f, laws);
      } else if j < k {
        RowStepLater(ps, cur, c, i, j, k, laws);
      }
    }
  }

  /** At the end of the row, what particle i has received from it is nothing. */
  lemma RowEffectDone(ps: seq<Particle>, cur: seq<Particle>, i: nat, j: nat, k: nat, laws: Laws)
    requires i < j == |ps| == |cur| && k < |ps|
    ensures Row(cur, i, j, laws)[k] == RowOutcome(ps, cur, i, j, k, laws)
  {
    if k == i {
      ApplyForceZero(cur[i], OutSum(ps, i, j, laws));
    }
  }

  /** The pair step applies the pair contribution, read off the original
      places, to i and its negation to j. */
  lemma PairStepMoves(ps: seq<Particle>, cur: seq<Particle>, i: nat, j: nat, laws: Laws)
    requires i < j < |ps|
    requires SamePlaces(cur, ps)
    ensures var c := PairStep(cur, i, j, laws);
            var f := Pull(laws, PlaceOf(ps[i]), PlaceOf(ps[j]));
            c[i] == ApplyForce(cur[i], f) && c[j] == ApplyForce(cur[j], f.Neg())
  {
    assert PlaceOf(cur[i]) == PlaceOf(ps[i]) && PlaceOf(cur[j]) == PlaceOf(ps[j]);
    if !laws.near(PlaceOf(ps[i]), PlaceOf(ps[j])) {
      var f := Pull(laws, PlaceOf(ps[i]), PlaceOf(ps[j]));
      ApplyForceZero(cur[i], f);
      ApplyForceZero(cur[j], f.Neg());
    }
  }

  /** A pair step (i, j) leaves what the rest of the row gives particle j
      as it was: the reaction it has just received is the one still owed. */
  lemma RowStepSecond(ps: seq<Particle>, cur: seq<Particle>, c: seq<Particle>, i: nat, j: nat, f: Vec, laws: Laws)
    requires i < j < |ps| == |cur| == |c|
    requires f == Pull(laws, PlaceOf(ps[i]), PlaceOf(ps[j]))
    requires c[j] == ApplyForce(cur[j], f.Neg())
    ensures RowOutcome(ps, c, i, j + 1, j, laws) == RowOutcome(ps, cur, i, j, j, laws)
  {
  }

  /** A pair step (i, j) leaves what the rest of the row gives a later
      particle k as it was. */
  lemma RowStepLater(ps: seq<Particle>, cur: seq<Particle>, c: seq<Particle>, i: nat, j: nat, k: nat, laws: Laws)
    requires i < j < k < |ps| == |cur| == |c|
    requires c[k] == cur[k]
    ensures RowOutcome(ps, c, i, j + 1, k, laws) == RowOutcome(ps, cur, i, j, k, laws)
  {
  }

  /** A pair step (i, j) moves the pair force out of what the rest of the
      row gives particle i and into particle i itself. */
  lemma RowStepFirst(ps: seq<Particle>, cur: seq<Particle>, c: seq<Particle>, i: nat, j: nat, f: Vec, laws: Laws)
    requires i < j < |ps| == |cur| == |c|
    requires f == Pull(laws, PlaceOf(ps[i]), PlaceOf(ps[j]))
    requires c[i] == ApplyForce(cur[i], f)
    ensures RowOutcome(ps, c, i, j + 1, i, laws) == RowOutcome(ps, cur, i, j, i, laws)
  {
    var rest := OutSum(ps, i, j + 1, laws);
    assert OutSum(ps, i, j, laws) == f.Plus(rest);
    ApplyForceAccumulates(cur[i], f, rest);
  }

  /** Run from particle i on, the outer loop completes what every particle
      has received so far into its net force. */
  lemma {:induction false} PassEffect(ps: seq<Particle>, cur: seq<Particle>, i: nat, k: nat, laws: Laws)
    requires i <= |ps| && k < |ps|
    requires SamePlaces(cur, ps)
    requires forall n :: 0 <= n < |ps| ==> cur[n] == ApplyForce(ps[n], Received(ps, n, i, laws))
    ensures Pass(cur, i, laws)[k] == ApplyForce(ps[k], NetForce(ps, k, laws))
    decreases |ps| - i
  {
    if i < |ps| {
      var i' := i + 1;
      var row := Row(cur, i, i', laws);
      var next := MouseStep(row, i, laws);
      forall n | 0 <= n < |ps|
        ensures next[n] == ApplyForce(ps[n], Received(ps, n, i', laws))
      {
        RowEffect(ps, cur, i, i', n, laws);
        if n == i {
          MouseStepMoves(ps, row, i, laws);
        }
        ReceivedStep(ps, cur, row, next, i, n, laws);
      }
      PassEffect(ps, next, i', k, laws);
    } else {
      PassUnfold(cur, i, laws);
    }
  }

  /** The mouse step applies the mouse contribution to particle i. */
  lemma MouseStepMoves(ps: seq<Particle>, cur: seq<Particle>, i: nat, laws: Laws)
    requires i < |ps| == |cur|
    requires SamePlace(cur[i], ps[i])
    ensures MouseStep(cur, i, laws)[i] == ApplyForce(cur[i], Kick(laws, PlaceOf(ps[i])))
  {
    assert PlaceOf(cur[i]) == PlaceOf(ps[i]);
    if !laws.pushed(PlaceOf(ps[i])) {
      ApplyForceZero(cur[i], Kick(laws, PlaceOf(ps[i])));
    }
  }

  /** One outer iteration (its row, then its mouse step) turns what particle
      n had received before particle i into what it has received after it. */
  lemma ReceivedStep(ps: seq<Particle>, cur: seq<Particle>, row: seq<Particle>, next: seq<Particle>, i: nat, n: nat, laws: Laws)
    requires i < |ps| == |cur| == |row| == |next| && n < |ps|
    requires cur[n] == ApplyForce(ps[n], Received(ps, n, i, laws))
    requires row[n] == RowOutcome(ps, cur, i, i + 1, n, laws)
    requires n == i ==> next[n] == ApplyForce(row[n], Kick(laws, PlaceOf(ps[n])))
    requires n != i ==> next[n] == row[n]
    ensures next[n] == ApplyForce(ps[n], Received(ps, n, i + 1, laws))
  {
    if n == i {
      var inner := InSum(ps, i, i, laws);
      var outer := OutSum(ps, i, i + 1, laws);
      ApplyForceAccumulates(ps[i], inner, outer);
      ApplyForceAccumulates(ps[i], inner.Plus(outer), Kick(laws, PlaceOf(ps[i])));
    } else if n > i {
      ApplyForceAccumulates(ps[n], InSum(ps, n, i, laws), Pull(laws, PlaceOf(ps[i]), PlaceOf(ps[n])).Neg());
    }
  }

  /** Whatever the laws, the pass gives every particle exactly its net force:
      the contributions of all pairs it belongs to, each counted once, plus
      the mouse contribution. */
  lemma PassIsNetForce(ps: seq<Particle>, laws: Laws)
    ensures var r := Pass(ps, 0, laws);
            forall k :: 0 <= k < |ps| ==> r[k] == ApplyForce(ps[k], NetForce(ps, k, laws))
  {
    forall n | 0 <= n < |ps|
      ensures ps[n] == ApplyForce(ps[n], Received(ps, n, 0, laws))
    {
      ApplyForceZero(ps[n], Received(ps, n, 0, laws));
    }
    assert SamePlaces(ps, ps);
    forall k | 0 <= k < |ps|
      ensures Pass(ps, 0, laws)[k] == ApplyForce(ps[k], NetForce(ps, k, laws))
    {
      PassEffect(ps, ps, 0, k, laws);
    }
  }

  /** applyForces gives every particle its net force under the laws of app.js. */
  lemma ApplyForcesIsNetForce(ps: seq<Particle>, m: Matrix, ptr: Pointer, dist: Vec -> real)
    ensures var r := ApplyForces(ps, m, ptr, dist);
            forall k :: 0 <= k < |ps| ==> r[k] == ApplyForce(ps[k], NetForce(ps, k, SourceLaws(m, ptr, dist)))
  {
    PassIsNetForce(ps, SourceLaws(m, ptr, dist));
  }

  // ---------------------------------------------------------------------
  // Momentum: each pair force is applied with its reaction, so the pass
  // changes the total velocity only by the mouse contributions.

  /** The sum of the velocities of the first n particles. */
  function MomentumUpTo(s: seq<Particle>, n: nat): Vec
    requires n <= |s|
  {
    if n == 0 then Zero else MomentumUpTo(s, n - 1).Plus(s[n - 1].vel)
  }

  /** The sum of all velocities. */
  function Momentum(s: seq<Particle>): Vec {
    MomentumUpTo(s, |s|)
  }

  /** The mouse contributions summed over the particles from index i on. */
  function PushTotal(ps: seq<Particle>, i: nat, laws: Laws): Vec
    requires i <= |ps|
    decreases |ps| - i
  {
    if i == |ps| then Zero else Kick(laws, PlaceOf(ps[i])).Plus(PushTotal(ps, i + 1, laws))
  }

  /** Replacing one particle changes the momentum by its change of velocity. */
  lemma MomentumReplace(s: seq<Particle>, i: nat, p: Particle)
    requires i < |s|
    ensures Momentum(s[i := p]) == Momentum(s).Plus(p.vel.Minus(s[i].vel))
  {
    PrefixReplace(s, i, p, |s|);
  }

  /** MomentumReplace on the first n particles. */
  lemma {:induction false} PrefixReplace(s: seq<Particle>, i: nat, p: Particle, n: nat)
    requires i < |s| && n <= |s|
    ensures n <= i ==> MomentumUpTo(s[i := p], n) == MomentumUpTo(s, n)
    ensures i < n ==> MomentumUpTo(s[i := p], n) == MomentumUpTo(s, n).Plus(p.vel.Minus(s[i].vel))
  {
    if n > 0 {
      PrefixReplace(s, i, p, n - 1);
    }
  }

  /** A pair step leaves the momentum unchanged. */
  lemma PairStepMomentum(cur: seq<Particle>, i: nat, j: nat, laws: Laws)
    requires i < j < |cur|
    ensures Momentum(PairStep(cur, i, j, laws)) == Momentum(cur)
  {
    var a, b := PlaceOf(cur[i]), PlaceOf(cur[j]);
    if laws.near(a, b) {
      ActionReaction(cur, i, j, laws.pair(a, b));
    }
  }

  /** A force on i together with its reaction on j cancel in the momentum. */
  lemma ActionReaction(cur: seq<Particle>, i: nat, j: nat, f: Vec)
    requires i < j < |cur|
    ensures Momentum(cur[i := ApplyForce(cur[i], f)][j := ApplyForce(cur[j], f.Neg())]) == Momentum(cur)
  {
    var a := ApplyForce(cur[i], f);
    var b := ApplyForce(cur[j], f.Neg());
    var mid := cur[i := a];
    MomentumReplace(cur, i, a);
    MomentumReplace(mid, j, b);
    ImpulseAdditive(f, Zero);
    Cancel(Momentum(cur), Momentum(mid), Momentum(mid[j := b]), Impulse(f));
  }

  /** Adding a vector and then its negation changes nothing. */
  lemma Cancel(m0: Vec, m1: Vec, m2: Vec, dv: Vec)
    requires m1 == m0.Plus(dv) && m2 == m1.Plus(dv.Neg())
    ensures m2 == m0
  {
  }

  /** The inner loop leaves the momentum unchanged. */
  lemma {:induction false} RowMomentum(cur: seq<Particle>, i: nat, j: nat, laws: Laws)
    requires i < j <= |cur|
    ensures Momentum(Row(cur, i, j, laws)) == Momentum(cur)
    decreases |cur| - j
  {
    RowUnfold(cur, i, j, laws);
    if j < |cur| {
      var c := PairStep(cur, i, j, laws);
      PairStepMomentum(cur, i, j, laws);
      RowMomentum(c, i, j + 1, laws);
    }
  }

  /** The mouse step adds the impulse of the mouse contribution on particle i. */
  lemma MouseStepMomentum(cur: seq<Particle>, i: nat, laws: Laws)
    requires i < |cur|
    ensures Momentum(MouseStep(cur, i, laws)) == Momentum(cur).Plus(Impulse(Kick(laws, PlaceOf(cur[i]))))
  {
    var a := PlaceOf(cur[i]);
    if laws.pushed(a) {
      MomentumReplace(cur, i, ApplyForce(cur[i], laws.push(a)));
    } else {
      NoImpulse(Momentum(cur), Kick(laws, a));
    }
  }

  /** A zero force adds a zero impulse. */
  lemma NoImpulse(v: Vec, f: Vec)
    requires f == Zero
    ensures v.Plus(Impulse(f)) == v
  {
    assert Impulse(f) == Zero;
  }

  /** The outer loop from i on adds the impulse of the mouse contribution on
      every particle it visits, and nothing else. */
  lemma {:induction false} PassMomentum(ps: seq<Particle>, cur: seq<Particle>, i: nat, laws: Laws)
    requires i <= |ps|
    requires SamePlaces(cur, ps)
    ensures Momentum(Pass(cur, i, laws)) == Momentum(cur).Plus(Impulse(PushTotal(ps, i, laws)))
    decreases |ps| - i
  {
    if i == |ps| {
      PassMomentumDone(ps, cur, i, laws);
    } else {
      var next := MouseStep(Row(cur, i, i + 1, laws), i, laws);
      var push := Kick(laws, PlaceOf(ps[i]));
      var later := PushTotal(ps, i + 1, laws);
      PassUnfold(cur, i, laws);
      VisitMomentum(ps, cur, i, laws);
      VisitPlaces(ps, cur, i, laws);
      PassMomentum(ps, next, i + 1, laws);
      assert PushTotal(ps, i, laws) == push.Plus(later);
      Combine(cur, next, Pass(next, i + 1, laws), push, later);
    }
  }

  /** The outer loop past the last particle adds nothing. */
  lemma PassMomentumDone(ps: seq<Particle>, cur: seq<Particle>, i: nat, laws: Laws)
    requires i == |ps| == |cur|
    ensures Momentum(Pass(cur, i, laws)) == Momentum(cur).Plus(Impulse(PushTotal(ps, i, laws)))
  {
    PassUnfold(cur, i, laws);
    NoImpulse(Momentum(cur), PushTotal(ps, i, laws));
  }

  /** Two successive momentum changes by impulses add up to the impulse of
      the summed forces. */
  lemma Combine(s0: seq<Particle>, s1: seq<Particle>, s2: seq<Particle>, f: Vec, g: Vec)
    requires Momentum(s1) == Momentum(s0).Plus(Impulse(f))
    requires Momentum(s2) == Momentum(s1).Plus(Impulse(g))
    ensures Momentum(s2) == Momentum(s0).Plus(Impulse(f.Plus(g)))
  {
    ImpulseAdditive(f, g);
    Chain(Momentum(s0), Momentum(s1), Momentum(s2), Impulse(f), Impulse(g));
  }

  /** One outer iteration adds the impulse of the mouse contribution on particle i. */
  lemma VisitMomentum(ps: seq<Particle>, cur: seq<Particle>, i: nat, laws: Laws)
    requires i < |ps|
    requires SamePlaces(cur, ps)
    ensures Momentum(MouseStep(Row(cur, i, i + 1, laws), i, laws)) == Momentum(cur).Plus(Impulse(Kick(laws, PlaceOf(ps[i]))))
  {
    var row := Row(cur, i, i + 1, laws);
    RowMomentum(cur, i, i + 1, laws);
    assert PlaceOf(row[i]) == PlaceOf(ps[i]);
    MouseStepMomentum(row, i, laws);
  }

  /** One outer iteration moves no particle. */
  lemma VisitPlaces(ps: seq<Particle>, cur: seq<Particle>, i: nat, laws: Laws)
    requires i < |ps|
    requires SamePlaces(cur, ps)
    ensures SamePlaces(MouseStep(Row(cur, i, i + 1, laws), i, laws), ps)
  {
  }

  /** Two successive changes add up. */
  lemma Chain(m0: Vec, m1: Vec, m2: Vec, d1: Vec, d2: Vec)
    requires m1 == m0.Plus(d1) && m2 == m1.Plus(d2)
    ensures m2 == m0.Plus(d1.Plus(d2))
  {
  }

  /** Whatever the laws, the pass changes the total velocity by exactly the
      impulse of the mouse contributions: every pair force comes with its
      reaction. */
  lemma PassMomentumTotal(ps: seq<Particle>, laws: Laws)
    ensures Momentum(Pass(ps, 0, laws)) == Momentum(ps).Plus(Impulse(PushTotal(ps, 0, laws)))
  {
    assert SamePlaces(ps, ps);
    PassMomentum(ps, ps, 0, laws);
  }

  /** applyForces changes the total velocity by the impulse of the mouse repulsion alone. */
  lemma ApplyForcesMomentum(ps: seq<Particle>, m: Matrix, ptr: Pointer, dist: Vec -> real)
    ensures var laws := SourceLaws(m, ptr, dist);
            Momentum(ApplyForces(ps, m, ptr, dist)) == Momentum(ps).Plus(Impulse(PushTotal(ps, 0, laws)))
  {
    PassMomentumTotal(ps, SourceLaws(m, ptr, dist));
  }

  /** Without a mouse applyForces conserves momentum. */
  lemma ApplyForcesConservesMomentum(ps: seq<Particle>, m: Matrix, dist: Vec -> real)
    ensures Momentum(ApplyForces(ps, m, Absent, dist)) == Momentum(ps)
  {
    NoPushWithoutMouse(ps, 0, m, dist);
    PassConserves(ps, SourceLaws(m, Absent, dist));
  }

  /** A pass in which the mouse contributions sum to zero conserves momentum. */
  lemma PassConserves(ps: seq<Particle>, laws: Laws)
    requires PushTotal(ps, 0, laws) == Zero
    ensures Momentum(Pass(ps, 0, laws)) == Momentum(ps)
  {
    PassMomentumTotal(ps, laws);
    NoImpulse(Momentum(ps), PushTotal(ps, 0, laws));
  }

  /** Without a mouse no particle is pushed. */
  lemma {:induction false} NoPushWithoutMouse(ps: seq<Particle>, i: nat, m: Matrix, dist: Vec -> real)
    requires i <= |ps|
    ensures PushTotal(ps, i, SourceLaws(m, Absent, dist)) == Zero
    decreases |ps| - i
  {
    if i < |ps| {
      NoPushWithoutMouse(ps, i + 1, m, dist);
    }
  }
}

=== FILE: forces.dfy ===
/** The force laws: the visual force of calculateForce (app.js:157-183) and
    the pair and mouse forces applyForces (app.js:280-317) applies. */
module Forces {
  import opened Config
  import opened Numerics
  import opened Geometry
  import opened Particles
  import opened Affinity

  /** The vector from a to b: (other.x - particle.x, other.y - particle.y). */
  function Separation(a: Particle, b: Particle): Vec {
    b.pos.Minus(a.pos)
  }

  /** The distance from a to b. */
  function Gap(a: Particle, b: Particle, dist: Vec -> real): real {
    dist(Separation(a, b))
  }

  // ---------------------------------------------------------------------
  // calculateForce: the bounded signal that colours connecting lines.

  /** The inter-type term: the matrix cell, fading linearly to zero at
      InterTypeMaxDistance. */
  function AffinityTerm(d: real, cell: real): real {
    if d < InterTypeMaxDistance then
      ((InterTypeMaxDistance - d) / InterTypeMaxDistance) * cell * InterTypeForceStrength
    else
      0.0
  }

  /** The basic repulsive term, fading linearly to zero at BasicRepulsiveMaxDistance. */
  function RepulsionTerm(d: real): real {
    if d < BasicRepulsiveMaxDistance then
      ((BasicRepulsiveMaxDistance - d) / BasicRepulsiveMaxDistance) * BasicRepulsiveForceStrength
    else
      0.0
  }

  /** calculateForce: the inter-type term minus the basic repulsion, both
      read off the distance. It only colours lines; the particles move by
      the dynamic force of applyForces. */
  function CalculateForce(a: Particle, b: Particle, m: Matrix, dist: Vec -> real): (f: real)
    ensures Gap(a, b, dist) >= InterTypeMaxDistance ==> f == 0.0
    ensures BasicRepulsiveMaxDistance <= Gap(a, b, dist) ==> f == AffinityTerm(Gap(a, b, dist), m.Cell(a.kind, b.kind))
    ensures Gap(a, b, dist) < BasicRepulsiveMaxDistance ==> f < AffinityTerm(Gap(a, b, dist), m.Cell(a.kind, b.kind))
  {
    var d := Gap(a, b, dist);
    AffinityTerm(d, m.Cell(a.kind, b.kind)) - RepulsionTerm(d)
  }

  /** Between the repulsion range and InterTypeMaxDistance the sign of the
      visual force is the sign of the matrix cell. */
  lemma CalculateForceSign(a: Particle, b: Particle, m: Matrix, dist: Vec -> real)
    requires BasicRepulsiveMaxDistance <= Gap(a, b, dist) < InterTypeMaxDistance
    ensures var f := CalculateForce(a, b, m, dist);
            var cell := m.Cell(a.kind, b.kind);
            (f > 0.0 <==> cell > 0.0) && (f < 0.0 <==> cell < 0.0)
  {
    var d := Gap(a, b, dist);
    var w := (InterTypeMaxDistance - d) / InterTypeMaxDistance;
    assert w > 0.0;
    ProductSign(w, m.Cell(a.kind, b.kind));
  }

  /** A positive weight keeps the sign of the matrix cell. */
  lemma ProductSign(w: real, c: real)
    requires w > 0.0
    ensures (w * c * InterTypeForceStrength > 0.0 <==> c > 0.0)
    ensures (w * c * InterTypeForceStrength < 0.0 <==> c < 0.0)
  {
    if c > 0.0 {
      assert w * c > 0.0;
    } else if c < 0.0 {
      assert w * c < 0.0;
    }
  }

  /** With a matrix from the construction, the visual force lies in
      (-0.11, 0.01): the clamp to [-1, 1] before colouring never bites. */
  lemma CalculateForceBounds(a: Particle, b: Particle, m: Matrix, dist: Vec -> real)
    requires IsDistance(dist) && Valid(m)
    ensures -0.11 < CalculateForce(a, b, m, dist) < 0.01
  {
    var d := Gap(a, b, dist);
    var cell := m.Cell(a.kind, b.kind);
    assert d >= 0.0;
    assert -1.0 < cell < 1.0;
    AffinityTermBounds(d, cell);
    RepulsionTermBounds(d);
  }

  /** The inter-type term stays below InterTypeForceStrength in size. */
  lemma AffinityTermBounds(d: real, cell: real)
    requires d >= 0.0 && -1.0 < cell < 1.0
    ensures -InterTypeForceStrength < AffinityTerm(d, cell) < InterTypeForceStrength
  {
    if d < InterTypeMaxDistance {
      var w := (InterTypeMaxDistance - d) / InterTypeMaxDistance;
      assert 0.0 < w <= 1.0;
      FactorBelowOne(w, cell);
      assert AffinityTerm(d, cell) == (w * cell) * InterTypeForceStrength;
    }
  }

  /** The repulsion term lies in [0, BasicRepulsiveForceStrength]. */
  lemma RepulsionTermBounds(d: real)
    requires d >= 0.0
    ensures 0.0 <= RepulsionTerm(d) <= BasicRepulsiveForceStrength
  {
    if d < BasicRepulsiveMaxDistance {
      var w := (BasicRepulsiveMaxDistance - d) / BasicRepulsiveMaxDistance;
      assert 0.0 < w <= 1.0;
    }
  }

  /** A weight in (0, 1] keeps a cell in (-1, 1). */
  lemma FactorBelowOne(w: real, c: real)
    requires 0.0 < w <= 1.0 && -1.0 < c < 1.0
    ensures -1.0 < w * c < 1.0
  {
    if c >= 0.0 {
      assert w * c <= 1.0 * c;
    } else {
      assert w * c >= 1.0 * c;
    }
  }

  // ---------------------------------------------------------------------
  // applyForces: the dynamic pair force and the mouse repulsion.

  /** The band 2 * ParticleSize < d < ForceThreshold in which a pair interacts. */
  predicate Interacts(a: Particle, b: Particle, dist: Vec -> real) {
    var d := Gap(a, b, dist);
    d < ForceThreshold && d > ParticleSize * 2.0
  }

  /** The force the pair (a, b) puts on a: the separation scaled by
      forceMatrix[a.type][b.type] / d; b receives its negation. */
  function PairForce(a: Particle, b: Particle, m: Matrix, dist: Vec -> real): (f: Vec)
    ensures !Interacts(a, b, dist) ==> f == Zero
  {
    if Interacts(a, b, dist) then
      Separation(a, b).Times(m.Cell(a.kind, b.kind) / Gap(a, b, dist))
    else
      Zero
  }

  /** The pair force lies along the line through the two particles. */
  lemma PairForceAlongSeparation(a: Particle, b: Particle, m: Matrix, dist: Vec -> real)
    ensures PairForce(a, b, m, dist).Cross(Separation(a, b)) == 0.0
  {
  }

  /** An interacting pair pulls a towards b when the cell is positive and
      pushes it away when the cell is negative. */
  lemma PairForceDirection(a: Particle, b: Particle, m: Matrix, dist: Vec -> real)
    requires IsDistance(dist) && Interacts(a, b, dist)
    ensures var f := PairForce(a, b, m, dist);
            var cell := m.Cell(a.kind, b.kind);
            && (cell > 0.0 ==> f.Dot(Separation(a, b)) > 0.0)
            && (cell < 0.0 ==> f.Dot(Separation(a, b)) < 0.0)
            && (cell == 0.0 ==> f == Zero)
  {
    var s := Separation(a, b);
    var c := m.Cell(a.kind, b.kind) / Gap(a, b, dist);
    assert s != Zero;
    DotOfScaled(s, c);
    assert Gap(a, b, dist) > 0.0;
    if m.Cell(a.kind, b.kind) > 0.0 {
      assert c > 0.0;
    } else if m.Cell(a.kind, b.kind) < 0.0 {
      assert c < 0.0;
    }
  }

  /** Scaling a nonzero vector by c gives a dot product with it of the sign of c. */
  lemma DotOfScaled(s: Vec, c: real)
    requires s != Zero
    ensures c > 0.0 ==> s.Times(c).Dot(s) > 0.0
    ensures c < 0.0 ==> s.Times(c).Dot(s) < 0.0
  {
    var n := s.Norm2();
    var r := s.Times(c).Dot(s);
    assert r == c * n;
    NormPositive(s);
    MulSign(c, n, r);
  }

  /** Only the zero vector has squared length zero. */
  lemma NormPositive(s: Vec)
    requires s != Zero
    ensures s.Norm2() > 0.0
  {
    var p, q := s.x * s.x, s.y * s.y;
    Square(s.x, p);
    Square(s.y, q);
    assert s.x != 0.0 || s.y != 0.0;
    assert s.Norm2() == p + q;
  }

  /** Particles on top of each other lie in the dead zone. */
  lemma CoincidentParticlesIgnoreEachOther(a: Particle, b: Particle, m: Matrix, dist: Vec -> real)
    requires IsDistance(dist) && a.pos == b.pos
    ensures !Interacts(a, b, dist) && PairForce(a, b, m, dist) == Zero
  {
    assert Separation(a, b) == Zero;
  }

  /** Whether a pair interacts does not depend on which particle comes first. */
  lemma InteractsSymmetric(a: Particle, b: Particle, dist: Vec -> real)
    requires IsDistance(dist)
    ensures Gap(a, b, dist) == Gap(b, a, dist)
    ensures Interacts(a, b, dist) <==> Interacts(b, a, dist)
  {
    assert Separation(b, a) == Separation(a, b).Neg();
  }

  /** The pair force reads only types and positions. */
  lemma PairForceOnlyPlaces(a: Particle, a': Particle, b: Particle, b': Particle, m: Matrix, dist: Vec -> real)
    requires SamePlace(a, a') && SamePlace(b, b')
    ensures Interacts(a, b, dist) == Interacts(a', b', dist)
    ensures PairForce(a, b, m, dist) == PairForce(a', b', m, dist)
  {
    assert Separation(a, b) == Separation(a', b');
  }

  /** The mouse is defined and 0 < d < MouseEffectRadius. */
  predicate Pushes(p: Particle, ptr: Pointer, dist: Vec -> real) {
    ptr.At? && var d := dist(p.pos.Minus(ptr.pos)); d < MouseEffectRadius && d > 0.0
  }

  /** The mouse repulsion on p: along p - mouse, of size MouseRepulsionForce / d. */
  function PushForce(p: Particle, ptr: Pointer, dist: Vec -> real): (f: Vec)
    ensures !Pushes(p, ptr, dist) ==> f == Zero
  {
    if Pushes(p, ptr, dist) then
      var away := p.pos.Minus(ptr.pos);
      away.Times(MouseRepulsionForce / dist(away))
    else
      Zero
  }

  /** The mouse repulsion lies along the line from the mouse to the particle. */
  lemma PushForceAlongAway(p: Particle, ptr: Pointer, dist: Vec -> real)
    requires ptr.At?
    ensures PushForce(p, ptr, dist).Cross(p.pos.Minus(ptr.pos)) == 0.0
  {
  }

  /** The mouse repulsion points away from the mouse. */
  lemma PushPointsAway(p: Particle, ptr: Pointer, dist: Vec -> real)
    requires IsDistance(dist) && Pushes(p, ptr, dist)
    ensures PushForce(p, ptr, dist).Dot(p.pos.Minus(ptr.pos)) > 0.0
  {
    var away := p.pos.Minus(ptr.pos);
    assert away != Zero;
    DotOfScaled(away, MouseRepulsionForce / dist(away));
  }

  /** The mouse repulsion reads only the position. */
  lemma PushForceOnlyPlace(p: Particle, q: Particle, ptr: Pointer, dist: Vec -> real)
    requires SamePlace(p, q)
    ensures Pushes(p, ptr, dist) == Pushes(q, ptr, dist)
    ensures PushForce(p, ptr, dist) == PushForce(q, ptr, dist)
  {
  }
}

=== FILE: geometry.dfy ===
/** Plane vectors, the abstract distance function and the pointer state. */
module Geometry {

  datatype Vec = Vec(x: real, y: real) {
    function Plus(o: Vec): Vec {
      Vec(x + o.x, y + o.y)
    }

    function Minus(o: Vec): Vec {
      Vec(x - o.x, y - o.y)
    }

    function Neg(): Vec {
      Vec(-x, -y)
    }

    function Times(c: real): Vec {
      Vec(x * c, y * c)
    }

    function Dot(o: Vec): real {
      x * o.x + y * o.y
    }

    /** Zero exactly when this vector and o are parallel. */
    function Cross(o: Vec): real {
      x * o.y - y * o.x
    }

    /** Squared length: compared against squared thresholds instead of taking sqrt. */
    function Norm2(): real {
      x * x + y * y
    }
  }

  const Zero: Vec := Vec(0.0, 0.0)

  /** The difference of two points is zero exactly when they coincide. */
  lemma MinusZero(a: Vec, b: Vec)
    ensures a.Minus(b) == Zero <==> a == b
  {
  }

  /** What the model assumes of Math.sqrt(dx * dx + dy * dy): it is never
      negative, it vanishes only on the zero vector, and it is unchanged when
      the vector is reversed. */
  ghost predicate IsDistance(dist: Vec -> real) {
    && (forall v: Vec :: dist(v) >= 0.0)
    && (forall v: Vec :: dist(v) == 0.0 <==> v == Zero)
    && (forall v: Vec {:trigger dist(v.Neg())} :: dist(v.Neg()) == dist(v))
  }

  /** The mouse: both coordinates defined, or both undefined. */
  datatype Pointer = Absent | At(pos: Vec)
}

=== FILE: numerics.dfy ===
/** The scalar helpers the engine borrows from JavaScript's Math object. */
module Numerics {

  /** A value Math.random() can return. */
  predicate IsUnit(r: real) {
    0.0 <= r < 1.0
  }

  /** Math.round: the nearest integer, halves rounded up. */
  function Round(x: real): (n: int)
    ensures n as real - 0.5 <= x < n as real + 0.5
  {
    (x + 0.5).Floor
  }

  /** Rounding is monotone. */
  lemma RoundMonotone(x: real, y: real)
    requires x <= y
    ensures Round(x) <= Round(y)
  {
  }

  /** An integer rounds to itself. */
  lemma RoundInt(n: int)
    ensures Round(n as real) == n
  {
  }

  /** A real between two integers rounds to an integer between them. */
  lemma RoundBetween(lo: int, l: real, hi: int)
    requires lo as real <= l <= hi as real
    ensures lo <= Round(l) <= hi
  {
    RoundInt(lo);
    RoundInt(hi);
    RoundMonotone(lo as real, l);
    RoundMonotone(l, hi as real);
  }

  /** A fraction of a quantity lies between zero and the quantity. */
  lemma FractionBetween(t: real, d: real)
    requires 0.0 <= t <= 1.0
    ensures d >= 0.0 ==> 0.0 <= t * d <= d
    ensures d <= 0.0 ==> d <= t * d <= 0.0
  {
    assert d - t * d == (1.0 - t) * d;
  }

  /** A random draw scaled by a positive size lands in [0, size). */
  lemma UnitScaleBelow(r: real, size: real)
    requires IsUnit(r)
    ensures size >= 0.0 ==> 0.0 <= r * size <= size
    ensures size > 0.0 ==> r * size < size
  {
    FractionBetween(r, size);
    assert size - r * size == (1.0 - r) * size;
  }

  /** Scaling by a positive size and dividing by it again gives the draw back. */
  lemma ScaleDivide(r: real, size: real)
    ensures size > 0.0 ==> (r * size) / size == r
  {
  }

  /** A point of [0, size) divided by the size is a unit draw that scales back to it. */
  lemma DivideUnit(c: real, size: real)
    requires 0.0 <= c < size
    ensures IsUnit(c / size) && (c / size) * size == c
  {
  }

  /** Math.min(Math.max(x, lo), hi). */
  function Clamp(x: real, lo: real, hi: real): (r: real)
    requires lo <= hi
    ensures lo <= r <= hi
    ensures lo <= x <= hi ==> r == x
    ensures x <= lo ==> r == lo
    ensures x >= hi ==> r == hi
  {
    var up := if x > lo then x else lo;
    if up < hi then up else hi
  }

  /** r = a * b is positive for positive factors. The product is passed in
      as r so that callers keep it as a named quantity. */
  lemma MulPos(a: real, b: real, r: real)
    requires a > 0.0 && b > 0.0 && r == a * b
    ensures r > 0.0
  {
  }

  /** A product with a positive factor n has the sign of the other factor. */
  lemma MulSign(c: real, n: real, r: real)
    requires n > 0.0 && r == c * n
    ensures c > 0.0 ==> r > 0.0
    ensures c < 0.0 ==> r < 0.0
  {
    if c > 0.0 {
      MulPos(c, n, r);
    } else if c < 0.0 {
      MulPos(-c, n, -r);
    }
  }

  /** A square p = v * v is never negative, and positive unless v is zero. */
  lemma Square(v: real, p: real)
    requires p == v * v
    ensures p >= 0.0
    ensures v != 0.0 ==> p > 0.0
  {
    if v > 0.0 {
      MulPos(v, v, p);
    } else if v < 0.0 {
      MulPos(-v, -v, p);
    }
  }

  /** Dividing by a larger positive number gives a smaller quotient. */
  lemma DivAntitone(c: real, x: real, y: real)
    requires c >= 0.0 && 0.0 < x <= y
    ensures c / y <= c / x
  {
    var a, b := c / x, c / y;
    assert a * x == c;
    assert b * y == c;
    assert b * x <= b * y;
  }
}

=== FILE: particles.dfy ===
/** The Particle class of app.js:61-111: its data, applyForce, update
    (soft damping, motion, wrap-around) and getColor. */
module Particles {
  import opened Config
  import opened Geometry
  import opened Colors

  /** A particle type: a row and column of the affinity matrix. */
  type Kind = k: int | 0 <= k < NumTypes

  datatype Particle = Particle(kind: Kind, pos: Vec, vel: Vec)

  /** What the forces read of a particle: its type and position. */
  datatype Place = Place(kind: Kind, pos: Vec)

  function PlaceOf(p: Particle): Place {
    Place(p.kind, p.pos)
  }

  /** Two particles that differ at most in velocity. */
  predicate SamePlace(p: Particle, q: Particle) {
    p.kind == q.kind && p.pos == q.pos
  }

  /** The velocity change a force causes: the force times FORCE_SCALE =
      0.0005. The scale is written as a literal so that the step stays
      linear arithmetic for the verifier. */
  function Impulse(force: Vec): (dv: Vec)
    ensures force == Zero <==> dv == Zero
  {
    force.Times(0.0005)
  }

  /** Impulses add up as their forces do. */
  lemma ImpulseAdditive(f: Vec, g: Vec)
    ensures Impulse(f).Plus(Impulse(g)) == Impulse(f.Plus(g))
    ensures Impulse(f.Neg()) == Impulse(f).Neg()
  {
  }

  /** applyForce: a force changes only the velocity, by its impulse. */
  function ApplyForce(p: Particle, force: Vec): (q: Particle)
    ensures SamePlace(q, p)
    ensures q.vel.Minus(p.vel) == Impulse(force)
  {
    p.(vel := p.vel.Plus(Impulse(force)))
  }

  /** Applying no force changes nothing. */
  lemma ApplyForceZero(p: Particle, f: Vec)
    requires f == Zero
    ensures ApplyForce(p, f) == p
  {
    assert Impulse(f) == Zero;
    PlusZero(p.vel, Impulse(f));
  }

  /** Adding the zero vector changes nothing. */
  lemma PlusZero(v: Vec, z: Vec)
    requires z == Zero
    ensures v.Plus(z) == v
  {
  }

  /** Forces applied one after another within a frame accumulate additively. */
  lemma ApplyForceAccumulates(p: Particle, f: Vec, g: Vec)
    ensures ApplyForce(ApplyForce(p, f), g) == ApplyForce(p, f.Plus(g))
  {
  }

  /** The soft speed limit of update: above MaxSpeed the velocity shrinks by
      DecelerationFactor, otherwise it is left alone; speed is compared
      squared, so no square root is taken. */
  function Damp(v: Vec): (w: Vec)
    ensures w == v <==> v.Norm2() <= MaxSpeed * MaxSpeed
    ensures v.Norm2() > MaxSpeed * MaxSpeed ==> w.Norm2() == DecelerationFactor * DecelerationFactor * v.Norm2()
    ensures v.Norm2() > MaxSpeed * MaxSpeed ==> w.Norm2() < v.Norm2()
    ensures w.Cross(v) == 0.0
    ensures v.Norm2() > 0.0 ==> w.Dot(v) > 0.0
  {
    if v.Norm2() > MaxSpeed * MaxSpeed then
      var w := v.Times(DecelerationFactor);
      assert w.Norm2() == DecelerationFactor * DecelerationFactor * v.Norm2();
      assert w.Dot(v) == DecelerationFactor * v.Norm2();
      w
    else
      v
  }

  /** Damping never makes a velocity component larger in magnitude. */
  lemma DampShrinks(v: Vec)
    ensures -(if v.x < 0.0 then -v.x else v.x) <= Damp(v).x <= (if v.x < 0.0 then -v.x else v.x)
    ensures -(if v.y < 0.0 then -v.y else v.y) <= Damp(v).y <= (if v.y < 0.0 then -v.y else v.y)
  {
  }

  /** The wrap-around of one axis: one size is added to a negative coordinate,
      then one size is subtracted from a coordinate beyond the edge. A
      coordinate inside the closed range [0, size] is left where it is, so
      one equal to size is not moved to 0. */
  function WrapAxis(c: real, size: real): (w: real)
    ensures w == c || w == c + size || w == c - size
    ensures c < 0.0 ==> w == c + size
    ensures 0.0 <= c <= size ==> w == c
    ensures 0.0 <= size < c ==> w == c - size
  {
    var lifted := if c < 0.0 then size + c else c;
    if lifted > size then lifted - size else lifted
  }

  /** A coordinate at most one size off the closed range [0, size] is
      brought back into it. */
  lemma WrapKeepsInRange(c: real, size: real)
    requires 0.0 <= size
    requires -size <= c <= 2.0 * size
    ensures 0.0 <= WrapAxis(c, size) <= size
  {
  }

  predicate OnCanvas(p: Particle, width: nat, height: nat) {
    0.0 <= p.pos.x <= width as real && 0.0 <= p.pos.y <= height as real
  }

  /** `to` is `from` moved by `step` and then, on each axis independently,
      shifted up by the canvas size when below 0, down by it when beyond the
      size, and kept where it is inside the closed range of the axis. */
  predicate ToroidalMove(from: Vec, step: Vec, to: Vec, width: nat, height: nat) {
    var moved := from.Plus(step);
    && (moved.x < 0.0 ==> to.x == moved.x + width as real)
    && (0.0 <= moved.x <= width as real ==> to.x == moved.x)
    && (width as real < moved.x ==> to.x == moved.x - width as real)
    && (moved.y < 0.0 ==> to.y == moved.y + height as real)
    && (0.0 <= moved.y <= height as real ==> to.y == moved.y)
    && (height as real < moved.y ==> to.y == moved.y - height as real)
  }

  /** update: damp, move by the (damped) velocity, then wrap each axis. */
  function Update(p: Particle, width: nat, height: nat): (q: Particle)
    ensures q.kind == p.kind
    ensures q.vel == Damp(p.vel)
    ensures ToroidalMove(p.pos, q.vel, q.pos, width, height)
  {
    var v := Damp(p.vel);
    var moved := p.pos.Plus(v);
    Particle(p.kind, Vec(WrapAxis(moved.x, width as real), WrapAxis(moved.y, height as real)), v)
  }

  /** A particle on the canvas whose damped step is no longer than the canvas
      stays on the (closed) canvas. */
  lemma UpdateStaysOnCanvas(p: Particle, width: nat, height: nat)
    requires OnCanvas(p, width, height)
    requires -(width as real) <= Damp(p.vel).x <= width as real
    requires -(height as real) <= Damp(p.vel).y <= height as real
    ensures OnCanvas(Update(p, width, height), width, height)
  {
    var v := Damp(p.vel);
    WrapKeepsInRange(p.pos.x + v.x, width as real);
    WrapKeepsInRange(p.pos.y + v.y, height as real);
  }

  /** getColor: the fixed palette, indexed by type. */
  const Palette: seq<Rgb> := [Rgb(255, 160, 122), Rgb(152, 251, 152), Rgb(173, 216, 230), Rgb(255, 215, 0)]

  function Color(k: Kind): (c: Rgb)
    ensures c.IsByte()
  {
    Palette[k]
  }

  /** Distinct types are drawn in distinct colours. */
  lemma ColorInjective(k1: Kind, k2: Kind)
    ensures Color(k1) == Color(k2) ==> k1 == k2
  {
  }
}

=== FILE: population.dfy ===
/** Sizing the particle population to the window area (app.js:121-143). */
module Population {
  import opened Config
  import opened Numerics
  import opened Geometry
  import opened Particles

  /** The three Math.random() draws made for one new particle, in the order
      the source makes them: type, x, y. */
  datatype Draw = Draw(kind: real, x: real, y: real)

  predicate ValidDraw(d: Draw) {
    IsUnit(d.kind) && IsUnit(d.x) && IsUnit(d.y)
  }

  predicate ValidSpawnDraws(draws: seq<Draw>) {
    forall k :: 0 <= k < |draws| ==> ValidDraw(draws[k])
  }

  /** calculateDesiredParticleCount: the window area times the density,
      rounded to the nearest integer. */
  function DesiredCount(width: nat, height: nat): (n: nat)
    ensures n as real - 0.5 <= (width * height) as real * Density < n as real + 0.5
    ensures width == 0 || height == 0 ==> n == 0
  {
    Round((width * height) as real * Density)
  }

  /** A window of 100 by 100 pixels holds three particles. */
  lemma DesiredCountSquare()
    ensures DesiredCount(100, 100) == 3
  {
  }

  /** A full-HD window holds 622 particles. */
  lemma DesiredCountFullHd()
    ensures DesiredCount(1920, 1080) == 622
  {
  }

  /** A larger window never holds fewer particles. */
  lemma DesiredCountMonotone(w1: nat, h1: nat, w2: nat, h2: nat)
    requires w1 * h1 <= w2 * h2
    ensures DesiredCount(w1, h1) <= DesiredCount(w2, h2)
  {
    RoundMonotone((w1 * h1) as real * Density, (w2 * h2) as real * Density);
  }

  /** Math.floor(r * 4): a type drawn uniformly, type k taking the k-th
      quarter of [0, 1). */
  function KindFromDraw(r: real): (k: Kind)
    requires IsUnit(r)
    ensures k as real / NumTypes as real <= r < (k + 1) as real / NumTypes as real
  {
    (r * NumTypes as real).Floor
  }

  /** Every type can be drawn: the left end of its quarter gives it. */
  lemma KindFromDrawOnto(k: Kind)
    ensures IsUnit(k as real / NumTypes as real)
    ensures KindFromDraw(k as real / NumTypes as real) == k
  {
  }

  /** Math.random() * size: a coordinate drawn uniformly. */
  function CoordFromDraw(r: real, size: nat): (c: real)
    requires IsUnit(r)
    ensures 0.0 <= c <= size as real
    ensures size > 0 ==> c < size as real && c / size as real == r
  {
    var s := size as real;
    UnitScaleBelow(r, s);
    ScaleDivide(r, s);
    r * s
  }

  /** Every point of [0, size) can be drawn: the draw c / size gives c. */
  lemma CoordFromDrawOnto(c: real, size: nat)
    requires 0.0 <= c < size as real
    ensures IsUnit(c / size as real) && CoordFromDraw(c / size as real, size) == c
  {
    DivideUnit(c, size as real);
  }

  /** One new particle: the type of the quarter the first draw falls in, the
      position the other two draws scaled to the canvas, at rest. */
  function Spawn(d: Draw, width: nat, height: nat): (p: Particle)
    requires ValidDraw(d)
    ensures p.kind as real / NumTypes as real <= d.kind < (p.kind + 1) as real / NumTypes as real
    ensures p.vel == Zero
    ensures 0.0 <= p.pos.x <= width as real && 0.0 <= p.pos.y <= height as real
    ensures width > 0 ==> p.pos.x / width as real == d.x
    ensures height > 0 ==> p.pos.y / height as real == d.y
    ensures width > 0 ==> p.pos.x < width as real
    ensures height > 0 ==> p.pos.y < height as real
  {
    Particle(KindFromDraw(d.kind), Vec(CoordFromDraw(d.x, width), CoordFromDraw(d.y, height)), Zero)
  }

  /** Enough draws to grow from `current` particles to the desired count. */
  predicate EnoughDraws(current: nat, width: nat, height: nat, draws: seq<Draw>) {
    ValidSpawnDraws(draws) && (current < DesiredCount(width, height) ==> DesiredCount(width, height) - current <= |draws|)
  }

  /** initParticles: grow by appending spawned particles, or truncate. */
  function InitParticles(ps: seq<Particle>, width: nat, height: nat, draws: seq<Draw>): (r: seq<Particle>)
    requires EnoughDraws(|ps|, width, height, draws)
    ensures |r| == DesiredCount(width, height)
    ensures forall k :: 0 <= k < |r| && k < |ps| ==> r[k] == ps[k]
    ensures forall k :: |ps| <= k < |r| ==> r[k] == Spawn(draws[k - |ps|], width, height)
  {
    var desired := DesiredCount(width, height);
    if |ps| < desired then
      ps + seq(desired - |ps|, k requires 0 <= k < desired - |ps| => Spawn(draws[k], width, height))
    else
      ps[..desired]
  }

  /** Particles added while growing start at rest inside the half-open canvas
      [0, width) x [0, height). */
  lemma InitParticlesSpawnsOnCanvas(ps: seq<Particle>, width: nat, height: nat, draws: seq<Draw>, k: nat)
    requires EnoughDraws(|ps|, width, height, draws)
    requires |ps| <= k < DesiredCount(width, height)
    ensures var p := InitParticles(ps, width, height, draws)[k];
            && p.vel == Zero
            && 0.0 <= p.pos.x < width as real
            && 0.0 <= p.pos.y < height as real
  {
    assert width != 0 && height != 0;
  }

  /** A second call with the same window size changes nothing, whatever
      draws it is offered. */
  lemma InitParticlesIdempotent(ps: seq<Particle>, width: nat, height: nat, d1: seq<Draw>, d2: seq<Draw>)
    requires EnoughDraws(|ps|, width, height, d1)
    requires ValidSpawnDraws(d2)
    ensures var once := InitParticles(ps, width, height, d1);
            InitParticles(once, width, height, d2) == once
  {
    var once := InitParticles(ps, width, height, d1);
    assert once[..|once|] == once;
  }
}

=== FILE: render.dfy ===
/** The choices renderParticles (app.js:195-236) makes before it touches the
    canvas: which pairs and which particles get a line, and in what colour. */
module Render {
  import opened Config
  import opened Numerics
  import opened Geometry
  import opened Colors
  import opened Particles
  import opened Affinity
  import opened Forces

  /** What one candidate line amounts to. A Line keeps the channels the
      colour functions compute, unclamped; a finite channel outside [0, 255]
      in an rgb(...) string is clamped when the browser parses the colour,
      so Line(Rgb(-75, 255, -75)) is stroked as rgb(0, 255, 0). InvalidColor
      is a line whose colour string holds a non-finite number: the canvas
      ignores that strokeStyle assignment and strokes in whatever colour was
      set before. */
  datatype Stroke = NoLine | Line(color: Rgb) | InvalidColor

  /** The line between particles i < j: drawn when they are closer than
      MaxLineDistance, coloured by the visual force clamped to [-1, 1]. */
  function PairLine(a: Particle, b: Particle, m: Matrix, dist: Vec -> real): (s: Stroke)
    ensures s.Line? <==> Gap(a, b, dist) < MaxLineDistance
    ensures !s.InvalidColor?
  {
    var normalized := Clamp(CalculateForce(a, b, m, dist), -1.0, 1.0);
    if Gap(a, b, dist) < MaxLineDistance then Line(ColorForForce(normalized)) else NoLine
  }

  /** With a constructed matrix the clamp never bites: a drawn line has
      exactly the colour of the visual force. */
  lemma PairLineIsForceColor(a: Particle, b: Particle, m: Matrix, dist: Vec -> real)
    requires IsDistance(dist) && Valid(m)
    requires Gap(a, b, dist) < MaxLineDistance
    ensures PairLine(a, b, m, dist) == Line(ColorForForce(CalculateForce(a, b, m, dist)))
  {
    CalculateForceBounds(a, b, m, dist);
  }

  /** Whether a pair gets a line does not depend on the order of the pair. */
  lemma PairLineSymmetric(a: Particle, b: Particle, m: Matrix, dist: Vec -> real)
    requires IsDistance(dist)
    ensures PairLine(a, b, m, dist).Line? <==> PairLine(b, a, m, dist).Line?
  {
    InteractsSymmetric(a, b, dist);
  }

  /** Lines are drawn only between particles close enough to feel each other. */
  lemma PairLineImpliesNear(a: Particle, b: Particle, m: Matrix, dist: Vec -> real)
    requires PairLine(a, b, m, dist).Line?
    ensures Gap(a, b, dist) < InterTypeMaxDistance && Gap(a, b, dist) < ForceThreshold
  {
  }

  /** The line from the mouse to a particle within MouseEffectRadius,
      coloured by MouseRepulsionForce / d. At d == 0 that quotient is
      Infinity in JavaScript and the colour string is not a colour. */
  function MouseLine(p: Particle, ptr: Pointer, dist: Vec -> real): (s: Stroke)
    ensures ptr.Absent? ==> s == NoLine
    ensures ptr.At? ==> (s == NoLine <==> dist(p.pos.Minus(ptr.pos)) >= MouseEffectRadius)
    ensures s.InvalidColor? <==> ptr.At? && dist(p.pos.Minus(ptr.pos)) == 0.0
    ensures ptr.At? && 0.0 < dist(p.pos.Minus(ptr.pos)) < MouseEffectRadius
            ==> s.Line? && s.color.r == 255 && s.color.g == s.color.b < 255
    ensures ptr.At? && dist(p.pos.Minus(ptr.pos)) == 10.0 ==> s == Line(Rgb(255, 0, 0))
  {
    match ptr
    case Absent => NoLine
    case At(mousePos) =>
      var d := dist(p.pos.Minus(mousePos));
      if d < MouseEffectRadius then
        if d == 0.0 then InvalidColor
        else if d > 0.0 then
          DivAntitone(MouseRepulsionForce, d, MouseEffectRadius);
          Line(ColorForMouseForce(MouseRepulsionForce / d))
        else
          Line(ColorForMouseForce(MouseRepulsionForce / d))
      else
        NoLine
  }

  /** A mouse line with a real colour is drawn exactly for the particles the
      mouse repels in applyForces. */
  lemma MouseLineIffPushed(p: Particle, ptr: Pointer, dist: Vec -> real)
    requires IsDistance(dist)
    ensures MouseLine(p, ptr, dist).Line? <==> Pushes(p, ptr, dist)
  {
    if ptr.At? {
      assert dist(p.pos.Minus(ptr.pos)) >= 0.0;
    }
  }

  /** Of two particles with mouse lines, the closer one has the redder line. */
  lemma MouseLineCloserIsRedder(p: Particle, q: Particle, ptr: Pointer, dist: Vec -> real)
    requires MouseLine(p, ptr, dist).Line? && MouseLine(q, ptr, dist).Line?
    requires dist(p.pos.Minus(ptr.pos)) <= dist(q.pos.Minus(ptr.pos))
    requires dist(p.pos.Minus(ptr.pos)) > 0.0
    ensures MouseLine(p, ptr, dist).color.g <= MouseLine(q, ptr, dist).color.g
  {
    var dp := dist(p.pos.Minus(ptr.pos));
    var dq := dist(q.pos.Minus(ptr.pos));
    DivAntitone(MouseRepulsionForce, dp, dq);
    ColorForMouseForceMonotone(MouseRepulsionForce / dq, MouseRepulsionForce / dp);
  }

  /** The mouse lines of all particles, in particle order: none without a
      mouse, a coloured one for exactly the particles the mouse repels in
      applyForces, and a broken colour for a particle under the cursor. */
  function MouseLines(ps: seq<Particle>, ptr: Pointer, dist: Vec -> real): (ss: seq<Stroke>)
    ensures |ss| == |ps|
    ensures forall k :: 0 <= k < |ps| ==> ss[k] == MouseLine(ps[k], ptr, dist)
    ensures ptr.Absent? ==> forall k :: 0 <= k < |ss| ==> ss[k] == NoLine
    ensures IsDistance(dist) ==> forall k :: 0 <= k < |ss| ==> (ss[k].Line? <==> Pushes(ps[k], ptr, dist))
    ensures IsDistance(dist) ==> forall k :: 0 <= k < |ss| ==> (ss[k].InvalidColor? <==> ptr.At? && ps[k].pos == ptr.pos)
  {
    MouseLinesPushed(ps, ptr, dist);
    seq(|ps|, k requires 0 <= k < |ps| => MouseLine(ps[k], ptr, dist))
  }

  /** MouseLineIffPushed for every particle at once, and the broken colour
      exactly under the cursor. */
  lemma MouseLinesPushed(ps: seq<Particle>, ptr: Pointer, dist: Vec -> real)
    ensures IsDistance(dist) ==> forall k :: 0 <= k < |ps| ==> (MouseLine(ps[k], ptr, dist).Line? <==> Pushes(ps[k], ptr, dist))
    ensures IsDistance(dist) ==> forall k :: 0 <= k < |ps| ==> (MouseLine(ps[k], ptr, dist).InvalidColor? <==> ptr.At? && ps[k].pos == ptr.pos)
  {
    if IsDistance(dist) {
      forall k | 0 <= k < |ps|
        ensures MouseLine(ps[k], ptr, dist).Line? <==> Pushes(ps[k], ptr, dist)
        ensures MouseLine(ps[k], ptr, dist).InvalidColor? <==> ptr.At? && ps[k].pos == ptr.pos
      {
        MouseLineIffPushed(ps[k], ptr, dist);
        if ptr.At? {
          MinusZero(ps[k].pos, ptr.pos);
        }
      }
    }
  }
}

=== FILE: simulation.dfy ===
/** The whole backdrop as a state machine: start-up, the resize handlers and
    one animation frame (app.js:271-277, 54-58, 186-191, 571-581). */
module Simulation {
  import opened Geometry
  import opened Particles
  import opened Affinity
  import opened Population
  import opened ForcePass

  /** The state one frame reads: the particles, the affinity matrix, the
      pointer, and the canvas size (equal to the window size, which
      resizeCanvas copies before every initParticles). */
  datatype World = World(particles: seq<Particle>, matrix: Matrix, pointer: Pointer, width: nat, height: nat)

  /** Every particle lies on the closed canvas. */
  predicate AllOnCanvas(ps: seq<Particle>, width: nat, height: nat) {
    forall k :: 0 <= k < |ps| ==> OnCanvas(ps[k], width, height)
  }

  /** Every particle's damped velocity is at most one canvas size per axis,
      so one move cannot carry it past the reach of the single wrap. */
  predicate ShortSteps(ps: seq<Particle>, width: nat, height: nat) {
    forall k :: 0 <= k < |ps| ==>
      && -(width as real) <= Damp(ps[k].vel).x <= width as real
      && -(height as real) <= Damp(ps[k].vel).y <= height as real
  }

  /** updateSimulation: update every particle in turn; each keeps its type,
      is damped, and moves by its damped velocity around the torus. */
  function UpdateSimulation(ps: seq<Particle>, width: nat, height: nat): (r: seq<Particle>)
    ensures |r| == |ps|
    ensures forall k :: 0 <= k < |r| ==> r[k].kind == ps[k].kind && r[k].vel == Damp(ps[k].vel)
    ensures forall k :: 0 <= k < |r| ==> ToroidalMove(ps[k].pos, r[k].vel, r[k].pos, width, height)
  {
    seq(|ps|, k requires 0 <= k < |ps| => Update(ps[k], width, height))
  }

  /** With short steps the update keeps every particle on the canvas. */
  lemma UpdateSimulationKeepsCanvas(ps: seq<Particle>, width: nat, height: nat)
    requires AllOnCanvas(ps, width, height) && ShortSteps(ps, width, height)
    ensures AllOnCanvas(UpdateSimulation(ps, width, height), width, height)
  {
    forall k | 0 <= k < |ps|
      ensures OnCanvas(UpdateSimulation(ps, width, height)[k], width, height)
    {
      UpdateStaysOnCanvas(ps[k], width, height);
    }
  }

  /** animate: the force pass, then the update. Drawing comes after and
      changes nothing. */
  function Frame(w: World, dist: Vec -> real): (w': World)
    ensures w'.matrix == w.matrix && w'.pointer == w.pointer
    ensures w'.width == w.width && w'.height == w.height
    ensures |w'.particles| == |w.particles|
    ensures forall k :: 0 <= k < |w.particles| ==> w'.particles[k].kind == w.particles[k].kind
  {
    var forced := ApplyForces(w.particles, w.matrix, w.pointer, dist);
    w.(particles := UpdateSimulation(forced, w.width, w.height))
  }

  /** A frame keeps the particles on the canvas as long as the velocities
      the forces produce, once damped, are shorter than the canvas. */
  lemma FrameKeepsCanvas(w: World, dist: Vec -> real)
    requires AllOnCanvas(w.particles, w.width, w.height)
    requires ShortSteps(ApplyForces(w.particles, w.matrix, w.pointer, dist), w.width, w.height)
    ensures AllOnCanvas(Frame(w, dist).particles, w.width, w.height)
  {
    var forced := ApplyForces(w.particles, w.matrix, w.pointer, dist);
    assert AllOnCanvas(forced, w.width, w.height) by {
      forall k | 0 <= k < |forced|
        ensures OnCanvas(forced[k], w.width, w.height)
      {
        assert SamePlace(forced[k], w.particles[k]);
      }
    }
    UpdateSimulationKeepsCanvas(forced, w.width, w.height);
  }

  /** Each particle leaves a frame with the damped velocity it had after the
      net force of the force pass. */
  lemma FrameVelocity(w: World, dist: Vec -> real, k: nat)
    requires k < |w.particles|
    ensures Frame(w, dist).particles[k].vel
         == Damp(ApplyForce(w.particles[k], NetForce(w.particles, k, SourceLaws(w.matrix, w.pointer, dist))).vel)
  {
    ApplyForcesIsNetForce(w.particles, w.matrix, w.pointer, dist);
  }

  /** Each particle leaves a frame moved by its new velocity around the
      torus from where it started: the force pass moves nobody. */
  lemma FramePosition(w: World, dist: Vec -> real, k: nat)
    requires k < |w.particles|
    ensures var p := Frame(w, dist).particles[k];
            ToroidalMove(w.particles[k].pos, p.vel, p.pos, w.width, w.height)
  {
    assert SamePlace(ApplyForces(w.particles, w.matrix, w.pointer, dist)[k], w.particles[k]);
  }

  /** resizeCanvas: adopt the new window size and resize the population. */
  function Resize(w: World, width: nat, height: nat, draws: seq<Draw>): (w': World)
    requires EnoughDraws(|w.particles|, width, height, draws)
    ensures w'.width == width && w'.height == height
    ensures w'.matrix == w.matrix && w'.pointer == w.pointer
    ensures |w'.particles| == DesiredCount(width, height)
    ensures forall k :: 0 <= k < |w'.particles| && k < |w.particles| ==> w'.particles[k] == w.particles[k]
    ensures forall k :: |w.particles| <= k < |w'.particles| ==> w'.particles[k] == Spawn(draws[k - |w.particles|], width, height)
  {
    w.(particles := InitParticles(w.particles, width, height, draws), width := width, height := height)
  }

  /** One window resize event: the listener of app.js:54-58 calls
      resizeCanvas and then initParticles, and the listener of app.js:277
      calls resizeCanvas again. Only the first call can grow the population,
      so it alone draws random numbers. */
  function ResizeEvent(w: World, width: nat, height: nat, draws: seq<Draw>): (w': World)
    requires EnoughDraws(|w.particles|, width, height, draws)
    ensures w'.width == width && w'.height == height
    ensures w'.matrix == w.matrix && w'.pointer == w.pointer
    ensures |w'.particles| == DesiredCount(width, height)
    ensures forall k :: 0 <= k < |w'.particles| && k < |w.particles| ==> w'.particles[k] == w.particles[k]
    ensures forall k :: |w.particles| <= k < |w'.particles| ==> w'.particles[k] == Spawn(draws[k - |w.particles|], width, height)
  {
    var first := Resize(w, width, height, draws);
    var second := Resize(first, width, height, []);
    Resize(second, width, height, [])
  }

  /** The three population resizes of one event amount to one. */
  lemma ResizeEventIsOneResize(w: World, width: nat, height: nat, draws: seq<Draw>)
    requires EnoughDraws(|w.particles|, width, height, draws)
    ensures ResizeEvent(w, width, height, draws) == Resize(w, width, height, draws)
  {
    var first := Resize(w, width, height, draws);
    InitParticlesIdempotent(w.particles, width, height, draws, []);
    InitParticlesIdempotent(first.particles, width, height, [], []);
  }

  /** Page load: the matrix is built, the pointer is undefined, and the
      population is sized by resizeCanvas (app.js:276) and then once more
      by initParticles (app.js:580). */
  function Start(width: nat, height: nat, scaleDraw: real, cellDraws: seq<real>, draws: seq<Draw>): (w: World)
    requires ValidDraws(scaleDraw, cellDraws)
    requires EnoughDraws(0, width, height, draws)
    ensures Valid(w.matrix) && w.pointer == Absent
    ensures w.matrix == Build(scaleDraw, cellDraws) && w.width == width && w.height == height
    ensures |w.particles| == DesiredCount(width, height)
  {
    var empty := World([], Build(scaleDraw, cellDraws), Absent, width, height);
    var sized := Resize(empty, width, height, draws);
    Resize(sized, width, height, [])
  }

  /** At start every particle is at rest inside the half-open canvas. */
  lemma StartAtRest(width: nat, height: nat, scaleDraw: real, cellDraws: seq<real>, draws: seq<Draw>, k: nat)
    requires ValidDraws(scaleDraw, cellDraws)
    requires EnoughDraws(0, width, height, draws)
    requires k < DesiredCount(width, height)
    ensures var p := Start(width, height, scaleDraw, cellDraws, draws).particles[k];
            p.vel == Zero && 0.0 <= p.pos.x < width as real && 0.0 <= p.pos.y < height as real
  {
    InitParticlesIdempotent([], width, height, draws, []);
    InitParticlesSpawnsOnCanvas([], width, height, draws, k);
  }
}
